=== FILE: README.md ===
# Fitness tracker store, modelled in Dafny

This project models the state core of a React Native fitness tracker. The
core has two parts:

- the in-memory store in `src/context/FitnessContext.tsx`, holding
  - the exercise catalog (33 presets plus custom exercises),
  - the weekly workout plan (day to ordered exercise ids),
  - workout sessions, the legacy per-exercise set history,
  - calorie entries, legacy workout entries and the user profile;
- the small decision rules four screens apply before they call the store:
  - the set editor `WorkoutLogger`,
  - the today's-workout screen `WorkoutTracker`,
  - the calorie screen `CalorieTracker`,
  - the exercise-management screen `CustomExercises`.

Every store operation is a pure function from a `Store` to a `Step`. A step is
the next store plus the ordered list of `AsyncStorage.setItem` writes the
operation issues, so "what would be persisted" is part of each contract. A
screen action returns `Submitted`: either `Rejected(alert)`, carrying the text
the screen shows, or `Accepted(step)`.

The clock and the id generator are parameters:

- `now` is the ISO timestamp of `new Date().toISOString()`, and today's
  calendar date is `DatePart(now)`, the text before the first `T`;
- `weekday` is `Date.getDay()`, mapped Sunday-first onto `Day`;
- `stamp` is the text of `Date.now()`;
- history days are integer day keys, and `timeOf` stands in for
  `new Date(date).getTime()`.

Numbers:

- reps, sets, ages and calories are `int`; weights and heights are `real`.
- An optional numeric field is `Option`. The JavaScript `x || d` rule is
  `IntOr`/`RealOr`: both a missing value and 0 give the fallback.
- A form field is `None` while its text is empty. Such a field takes its
  fallback only when empty, since the text "0" is not falsy (`FieldOr`).

Files (one module each):

| file | module | what |
|---|---|---|
| wrappers.dfy | Wrappers | `Option` |
| seqs.dfy | Seqs | filter, first-match index, drop-by-index, replace-by-predicate and a descending sort over sequences |
| text.dfy | Text | `trim` and the `split('T')[0]` date prefix |
| model.dfy | Model | the record types of `src/types/index.ts`, the Sunday-first day index, the falsy-default rule |
| presets.dfy | Defaults | the 33 preset exercises and the default weekly plan |
| calories.dfy | Calories | the maintenance-calorie estimate |
| fitness_store.dfy | FitnessStore | the store and its operations |
| workout_logger.dfy | WorkoutLogger | the set editor |
| workout_tracker.dfy | WorkoutTracker | today's-workout screen |
| calorie_tracker.dfy | CalorieTracker | calorie screen |
| custom_exercises.dfy | CustomExercisesScreen | exercise-management screen |

Two facts about the code that are easy to misread:

- `addExercise` applies no defaults. It keeps the sets, reps and weight it is
  given. Only `addCustomExercise` turns a missing or 0 default into 3/10/0
  (`src/context/FitnessContext.tsx:151-168` against `265-279`).
- The maintenance estimate of a 70 kg, 170 cm, 25-year-old moderately active
  male is 2546 (BMR 1642.5). For a 60 kg, 165 cm, 30-year-old sedentary
  female it is 1584 (BMR 1320.25). `Calories.MaleReferenceProfile` and
  `Calories.FemaleReferenceProfile` prove these values.

## Model

| member | source | states |
|---|---|---|
| Model.DayOfIndex | src/context/FitnessContext.tsx:446-447 | `getDay()` 0..6 names the days Sunday first; the index of the named day is the index given |
| Model.DayIndexRoundTrip | src/context/FitnessContext.tsx:446-447 | every day is named by exactly its own index, so the day table is a bijection |
| Model.IntOr | src/context/FitnessContext.tsx:270-271 | `v \|\| d` on an optional number: a missing value and 0 both give the fallback, anything else is kept, so the result is 0 only when the fallback is |
| Model.RealOr | src/context/FitnessContext.tsx:272 | the same falsy rule for weights: 0.0 comes out only when the fallback is 0.0 |
| Model.DefaultIsSticky | src/context/FitnessContext.tsx:270-271 | a non-zero fallback never yields 0, so applying the rule to its own result changes nothing |
| Defaults.PresetsAreNotCustom | src/context/FitnessContext.tsx:47-98 | no preset exercise is marked custom |
| FitnessStore.CustomOnly | src/context/FitnessContext.tsx:162 | the persisted custom list holds exactly the custom exercises of the catalog |
| FitnessStore.LoadCatalog | src/context/FitnessContext.tsx:237-240 | the loaded catalog is the presets, in order, followed by exactly the stored custom list, or the presets alone when none is stored |
| FitnessStore.CatalogRoundTrip | src/context/FitnessContext.tsx:237-240 | persisting the custom part of a presets-then-custom catalog and loading it back gives the same catalog: presets are never written and no custom exercise is lost |
| FitnessStore.CustomPartOfLayout | src/context/FitnessContext.tsx:162 | for a catalog laid out as non-custom entries then custom ones, the custom filter is exactly the tail after the non-custom prefix |
| FitnessStore.Lookup | src/context/FitnessContext.tsx:451 | `find` by id: found exactly when some exercise has the id, and then it is the first such exercise |
| FitnessStore.AddExercise | src/context/FitnessContext.tsx:151-168 | appends one exercise marked custom, keeping a non-empty id and generating `custom_<stamp>` for an empty one; every other field as given; writes only the custom list |
| FitnessStore.AddCustomExercise | src/context/FitnessContext.tsx:265-279 | appends one custom exercise `custom_<stamp>`; a missing or 0 default becomes 3 sets, 10 reps, weight 0, a non-zero one is kept; nothing else changes |
| FitnessStore.UpdateExercise | src/context/FitnessContext.tsx:170-183 | each exercise with the given id is replaced, every other keeps its value and position, the length is unchanged |
| FitnessStore.UpdateExerciseIdempotent | src/context/FitnessContext.tsx:170-174 | updating twice with the same exercise equals updating once |
| FitnessStore.DeleteExercise | src/context/FitnessContext.tsx:185-217 | the id leaves the catalog, every plan day, the history rows and the sessions, everything else stays; the four collections are written in that order; the custom flag is not checked |
| FitnessStore.DeleteCustomExercise | src/context/FitnessContext.tsx:385-411 | behaves exactly as `deleteExercise` |
| FitnessStore.DeleteKeepsOrder | src/context/FitnessContext.tsx:188 | the survivors of a delete keep their relative order |
| FitnessStore.DeleteKeepsHistoryOrder | src/context/FitnessContext.tsx:199-200 | the history left by a delete, split anywhere, is the delete of the front followed by the delete of the back, so surviving rows keep their order |
| FitnessStore.DeleteKeepsSessionOrder | src/context/FitnessContext.tsx:203 | the same order law for the sessions a delete leaves |
| FitnessStore.DeleteKeepsDayOrder | src/context/FitnessContext.tsx:192-195 | the same order law for each plan day's ids |
| FitnessStore.WorkoutEntrySurvivesDelete | src/context/FitnessContext.tsx:185-217 | deleting an exercise does not touch the legacy workout entries: an entry logged for it remains while the exercise is gone |
| FitnessStore.DeleteAbsentChangesNothing | src/context/FitnessContext.tsx:185-204 | deleting an id that occurs nowhere leaves the store as it was |
| FitnessStore.UpdateKeepsLayout | src/context/FitnessContext.tsx:172-174 | replacing by id an exercise absent from a fixed prefix with a custom one keeps that prefix and only custom entries after it |
| FitnessStore.UpdateExerciseKeepsShape | src/context/FitnessContext.tsx:170-183 | updating with a custom exercise that carries no preset id keeps the presets-then-custom layout |
| FitnessStore.AddExerciseKeepsShape | src/context/FitnessContext.tsx:151-160 | adding keeps the presets-then-custom layout of the catalog |
| FitnessStore.AddCustomExerciseKeepsShape | src/context/FitnessContext.tsx:265-275 | adding a custom exercise keeps the presets-then-custom layout |
| FitnessStore.DeleteKeepsShape | src/context/FitnessContext.tsx:185-189 | deleting an id no preset carries keeps the presets-then-custom layout |
| FitnessStore.DeleteKeepsLayout | src/context/FitnessContext.tsx:188 | filtering out an id absent from a fixed prefix keeps that prefix and leaves only custom entries after it |
| FitnessStore.UpdateWorkoutPlan | src/context/FitnessContext.tsx:420-424 | the day's list becomes the given list and no other day changes |
| FitnessStore.UpdateWorkoutPlanWithSameListKeepsDays | src/context/FitnessContext.tsx:420-424 | writing back a day's own list leaves every day of the plan as it was |
| FitnessStore.AddExerciseToDay | src/context/FitnessContext.tsx:426-433 | an absent id is appended to that day only; a present id changes nothing and writes nothing; afterwards the id is on the day |
| FitnessStore.AddExerciseToDayIdempotent | src/context/FitnessContext.tsx:426-433 | adding the same id to the same day twice equals adding it once |
| FitnessStore.AddExerciseToDayKeepsNoDuplicates | src/context/FitnessContext.tsx:426-433 | a day without duplicate ids keeps none after an add |
| FitnessStore.RemoveExerciseFromDay | src/context/FitnessContext.tsx:435-443 | every occurrence of the id leaves that day, the other ids stay, other days are untouched |
| FitnessStore.RemoveKeepsOrder | src/context/FitnessContext.tsx:438-439 | the day's list after a removal, split anywhere, is the removal from the front followed by the removal from the back, so the remaining ids keep their order |
| FitnessStore.RemoveAbsentKeepsDay | src/context/FitnessContext.tsx:435-443 | removing an id the day does not hold leaves its list identical, order included |
| FitnessStore.AddThenRemoveRestoresDay | src/context/FitnessContext.tsx:426-443 | adding an absent id and then removing it restores the day's list exactly |
| FitnessStore.Resolve | src/context/FitnessContext.tsx:450-452 | each id that names an exercise resolves to the first exercise with it, in list order; dangling ids are dropped, so the result is never longer |
| FitnessStore.ResolveAllKnown | src/context/FitnessContext.tsx:450-452 | when every id names an exercise nothing is dropped: position by position, each id resolves to the first exercise carrying it |
| FitnessStore.KnownIdResolves | src/context/FitnessContext.tsx:450-452 | an id on the list that names an exercise contributes that exercise to the result |
| FitnessStore.GetCurrentDayPlan | src/context/FitnessContext.tsx:445-453 | today's plan resolved in plan order; every exercise returned is in the catalog and on today's list; no longer than today's list |
| FitnessStore.DanglingIdDropped | src/context/FitnessContext.tsx:450-452 | a dangling id between two known ids is skipped and the known ones keep their order |
| FitnessStore.SetUserProfile | src/context/FitnessContext.tsx:253-256 | the profile is replaced as given, with no validation, and written; `CalorieTracker.SavedProfileDrivesMaintenance` follows it into the maintenance estimate |
| FitnessStore.AddCalorieEntry | src/context/FitnessContext.tsx:258-263 | appends one entry with id `stamp` and the given fields; earlier entries stay as they were |
| FitnessStore.TwoEntriesSameDateBothKept | src/context/FitnessContext.tsx:258-263 | entries for the same date are never merged: two adds keep both, in order |
| FitnessStore.AddWorkoutEntry | src/context/FitnessContext.tsx:413-418 | appends one legacy entry with id `stamp` and the given fields |
| FitnessStore.AddWorkoutSession | src/context/FitnessContext.tsx:312-330 | appends one session with id `stamp` and the given fields; earlier sessions stay |
| FitnessStore.UpdateWorkoutSession | src/context/FitnessContext.tsx:332-348 | each session with the given id is replaced, the others keep value and position |
| FitnessStore.UpdateWorkoutSessionKeepsIds | src/context/FitnessContext.tsx:336-338 | position by position, session ids survive an update |
| FitnessStore.UpdateWorkoutSessionIdempotent | src/context/FitnessContext.tsx:336-338 | updating twice with the same session equals updating once |
| FitnessStore.TodaysWorkoutIndex | src/context/FitnessContext.tsx:356-361 | the first session of the exercise whose date starts with today's date, or none when no session qualifies |
| FitnessStore.GetTodaysWorkout | src/context/FitnessContext.tsx:356-361 | a session is returned exactly when one of the exercise's sessions is dated today, and it is the first such session in list order |
| FitnessStore.GetWorkoutSessionsForExercise | src/context/FitnessContext.tsx:219-223 | exactly the exercise's sessions, as a permutation of the filtered list, sorted most recent first |
| FitnessStore.NewestSessionComesFirst | src/context/FitnessContext.tsx:219-223 | a session added with a later date than all earlier ones of its exercise is listed first |
| FitnessStore.AddExerciseSet | src/context/FitnessContext.tsx:281-310 | the set is appended to the exercise's first history row, or a new row is opened at the end; every other row is unchanged |
| FitnessStore.GetExerciseHistoryByDateRange | src/context/FitnessContext.tsx:363-378 | the sets of the exercise's first row dated inside the range, and every such set; none without a row |
| FitnessStore.RangeKeepsLoggedOrder | src/context/FitnessContext.tsx:369-377 | the range result of a row split anywhere is the result for the front followed by the result for the back, so sets come out in logged order and with their multiplicity |
| FitnessStore.RangeOfOneSet | src/context/FitnessContext.tsx:372-376 | a row holding one set yields that set exactly when its day is in the range |
| FitnessStore.GetTodaysExerciseSets | src/context/FitnessContext.tsx:380-383 | exactly the sets of the exercise's first row dated today: each returned set is dated today and each such set is returned; none without a row |
| FitnessStore.LoggedSetReadsBack | src/context/FitnessContext.tsx:293-299 | a set logged today reads back as the last of today's sets, after those logged before |
| Calories.RoundHalfUp | src/context/FitnessContext.tsx:477 | `Math.round` gives the integer within half of the value, halves going up |
| Calories.RoundHalfUpMonotone | src/context/FitnessContext.tsx:477 | rounding never reverses the order of two values |
| Calories.MultiplierMonotone | src/context/FitnessContext.tsx:468-474 | the multiplier table rises with the activity level, from 1.2 to 1.9 |
| Calories.MaintenanceCalories | src/context/FitnessContext.tsx:455-478 | 2000 without a profile; otherwise within half a calorie of the Mifflin-St Jeor BMR times the level's multiplier |
| Calories.MaleReferenceProfile | src/context/FitnessContext.tsx:461-477 | 70 kg, 170 cm, 25 years, male, moderate gives 2546 |
| Calories.FemaleReferenceProfile | src/context/FitnessContext.tsx:461-477 | 60 kg, 165 cm, 30 years, female, sedentary gives 1584 |
| Calories.HalfRoundsUp | src/context/FitnessContext.tsx:477 | an estimate of exactly 1897.5 rounds up to 1898 |
| Calories.MoreActiveNeverLower | src/context/FitnessContext.tsx:468-477 | with a non-negative BMR, a more active level never lowers the estimate |
| Calories.FemaleNeverAboveMale | src/context/FitnessContext.tsx:461-465 | the female BMR is the male one less 166, so the female estimate is never higher |
| WorkoutLogger.OpenEditor | src/components/WorkoutLogger.tsx:25-41 | on today's session: its sets unchanged and `notes \|\| ''`; otherwise `defaultSets \|\| 3` copies of an uncompleted set with reps `defaultReps \|\| 10` and weight `defaultWeight \|\| 0` |
| WorkoutLogger.OpenWithoutDefaults | src/components/WorkoutLogger.tsx:32-39 | with no defaults, or 0 sets, the editor opens on three uncompleted sets of 10 at weight 0 |
| WorkoutLogger.UpdateSet | src/components/WorkoutLogger.tsx:43-49 | only the named field of set `index` changes; the length and every other set stay |
| WorkoutLogger.OpenThenSaveKeepsSets | src/components/WorkoutLogger.tsx:25-87 | opening on today's session and saving without edits keeps that session's id and sets, with notes `notes \|\| ''`; without a session, exactly one session of the default sets is added |
| WorkoutLogger.AddSet | src/components/WorkoutLogger.tsx:51-61 | appends exactly one uncompleted set copying the last set's non-zero reps and weight, else the exercise default, else 10 and 0 |
| Seqs.DropAt | src/components/WorkoutLogger.tsx:65 | filtering by index drops exactly the element at that index and keeps the order of the rest; an index out of range drops nothing |
| WorkoutLogger.RemoveSet | src/components/WorkoutLogger.tsx:63-67 | never drops below one set; with more than one, removes exactly `index` and keeps the order of the rest |
| WorkoutLogger.AddThenRemoveSet | src/components/WorkoutLogger.tsx:51-67 | adding a set and removing the set just added restores a non-empty list |
| WorkoutLogger.SaveWorkout | src/components/WorkoutLogger.tsx:69-87 | corrected save: with today's session the edited data replaces it under the same id, otherwise one new session is appended; never both |
| WorkoutLogger.SaveWorkoutAsWritten | src/components/WorkoutLogger.tsx:81-83 | the save as written: with today's session the store is left unchanged and the unchanged list is written |
| WorkoutLogger.SavedEditsAreLost | src/components/WorkoutLogger.tsx:82 | editing today's session's sets and saving loses the edits as written, and keeps them in the corrected save |
| WorkoutTracker.CompleteSet | src/screens/WorkoutTracker.tsx:274-301 | with today's session, the completed set goes at the end of its sets and nothing else about it changes, every session sharing its id becomes that updated session, and sessions with other ids stay; otherwise one session with just that set and empty notes is added |
| WorkoutTracker.CompletedSetOpensTodaysSession | src/screens/WorkoutTracker.tsx:277-294 | after completing a set, the exercise has a session today, so the next set joins it |
| WorkoutTracker.QuickAddSet | src/screens/WorkoutTracker.tsx:389-395 | the set recorded is completed and has reps `defaultReps \|\| 10` and weight `defaultWeight \|\| 0`, at the end of today's session |
| WorkoutTracker.QuickAddGrowsTodaysSession | src/screens/WorkoutTracker.tsx:274-295 | a quick add grows today's session by exactly one set at the end, keeping its earlier sets; sessions sharing its id become the grown session and every other session stays; without one, exactly one session of one set is added |
| WorkoutTracker.ZeroRulesDiffer | src/screens/WorkoutTracker.tsx:206-208 | the form keeps an entered 0 where the store's falsy rule replaces it: `FieldOr` keeps every entered number, and whenever it yields 0 the falsy rule yields the fallback |
| WorkoutTracker.HandleAddExercise | src/screens/WorkoutTracker.tsx:195-225 | refused, with the alert, exactly when the trimmed name or category is empty; otherwise the trimmed exercise with 3/10/0 for empty fields is appended and then put on today's plan, other days untouched; when the generated id is already on today's list the plan is unchanged; writes the custom list, then the plan only when the id was added |
| WorkoutTracker.AddedExerciseIsPlannedToday | src/screens/WorkoutTracker.tsx:201-217 | when the generated id is new, an exercise the form accepts appears in today's resolved plan, marked custom |
| WorkoutTracker.HandleUpdateExercise | src/screens/WorkoutTracker.tsx:227-250 | refused exactly when the trimmed name or category is empty; otherwise id and custom flag kept, only name, category and the three defaults overwritten; the custom list is written |
| WorkoutTracker.EditKeepsCatalogShape | src/screens/WorkoutTracker.tsx:227-250 | an accepted edit of a custom exercise that carries no preset id keeps the presets-then-custom layout, so it survives a reload |
| WorkoutTracker.HandleDeleteExercise | src/screens/WorkoutTracker.tsx:252-272 | the handler has no custom guard (the screen offers Delete only on custom exercises, lines 342-357) and is exactly the store's `deleteExercise`: the id leaves the catalog and every plan day while the day's other ids stay, it leaves the history and the sessions, the profile, calorie entries and workout entries are kept, and the four collections are written in order |
| WorkoutTracker.DeletedExerciseLeavesToday | src/screens/WorkoutTracker.tsx:252-272 | after a delete the exercise is not on today's resolved plan and has no session today |
| WorkoutTracker.TodaySessionCount | src/screens/WorkoutTracker.tsx:408-410 | the count equals the number of sessions whose date starts with today's date |
| CalorieTracker.DayTotalSnoc | src/screens/CalorieTracker.tsx:64-66 | one more entry raises its own date's total by its calories and no other date's |
| CalorieTracker.DayTotalWithoutEntries | src/screens/CalorieTracker.tsx:64-66 | a date without entries totals 0 |
| CalorieTracker.SumCaloriesConcat | src/screens/CalorieTracker.tsx:66 | the running sum is additive over concatenation |
| CalorieTracker.TodayCalories | src/screens/CalorieTracker.tsx:62-67 | equals the total of the date `DatePart(now)` over all entries, which is 0 when no entry is dated today |
| CalorieTracker.NewEntryCountsToday | src/screens/CalorieTracker.tsx:112-118 | an entry added for today raises today's total by exactly its calories |
| CalorieTracker.WeeklyData | src/screens/CalorieTracker.tsx:69-104 | day `i` is today minus `6 - i`, each with its date's total, paired with seven copies of the maintenance estimate; the last intake is today's total |
| CalorieTracker.HandleAddEntry | src/screens/CalorieTracker.tsx:106-122 | refused exactly when the calories or food text is empty; otherwise one entry dated today is appended, nothing else changes and the entry list is written |
| CalorieTracker.AcceptedEntryCountsToday | src/screens/CalorieTracker.tsx:106-122 | an accepted entry raises today's total by exactly its calories |
| CalorieTracker.HandleSaveProfile | src/screens/CalorieTracker.tsx:124-137 | saved exactly when weight, height and age are all positive; a 0 is reported as missing, a negative as invalid; a saved profile is stored and written as given |
| CalorieTracker.CalorieBalance | src/screens/CalorieTracker.tsx:252-259 | the balance is maintenance minus intake; labelled a deficit, with a "+", exactly when intake is below maintenance |
| CalorieTracker.SavedProfileDrivesMaintenance | src/screens/CalorieTracker.tsx:124-137 | a saved profile is stored as given and the maintenance estimate becomes the rounded BMR times its activity multiplier |
| CalorieTracker.CalorieBalanceMonotone | src/screens/CalorieTracker.tsx:252-259 | eating more never raises the balance, and a surplus stays a surplus at any larger intake |
| CalorieTracker.BalanceAtMaintenance | src/screens/CalorieTracker.tsx:254-259 | eating exactly the maintenance amount is a surplus of 0 |
| CustomExercisesScreen.HandleAddExercise | src/screens/CustomExercises.tsx:45-60 | refused exactly when the name is all white space; otherwise a custom exercise with the trimmed name, the category and defaults 3/10/0 is appended and the custom list is written |
| CustomExercisesScreen.HandleDeleteExercise | src/screens/CustomExercises.tsx:62-80 | a preset is refused and never reaches the store; a custom exercise goes through the store's delete cascade |
| CustomExercisesScreen.PresetsSurviveScreenDelete | src/screens/CustomExercises.tsx:62-76 | whatever this screen deletes, every preset with another id survives |
| CustomExercisesScreen.ExercisesByCategory | src/screens/CustomExercises.tsx:82-85 | exactly the catalog's exercises of that category |
| CustomExercisesScreen.ExercisesByCategoryAppend | src/screens/CustomExercises.tsx:83 | the category view keeps catalog order: an appended exercise lands last in its own category only |
| CustomExercisesScreen.ListedExercises | src/screens/CustomExercises.tsx:194 | the screen lists exactly the exercises whose category is on its menu |
| CustomExercisesScreen.CardioIsNeverListed | src/screens/CustomExercises.tsx:34-43 | a "cardio" exercise is in the catalog but on no card of this screen |
| Text.TrimEmptyIffBlank | src/screens/CustomExercises.tsx:46 | a trimmed name is empty exactly when the name is all ECMAScript white space or line terminators |
| Text.TrimDropsWrappingSpace | src/screens/CustomExercises.tsx:46 | one white-space character on each side of a text never changes its trimmed form |
| Text.IdeographicSpaceIsBlank | src/screens/CustomExercises.tsx:46 | the ideographic space and the other Unicode space separators are trimmed like a plain space |

## Left out

- AsyncStorage itself, JSON serialisation, the save-on-change effects and `loadData`'s error handling. The writes an operation issues are modelled as a list of values, not as I/O.
- `loadData` for the keys other than `customExercises`: each just replaces one collection with its stored value.
- React rendering, navigation, modals, `Alert` dialogs and their confirmation buttons, styles and console logging. A confirmed delete is modelled as the call made after confirmation.
- `src/components/ExerciseChart.tsx` and `src/screens/ExerciseDetail.tsx`: floating-point chart layout and free-text parsing outside the core.
- The JavaScript `Date` machinery: `toISOString`, `getDay`, `Date.now`, `setDate` and `new Date(str)` parsing. These enter as the `now`, `weekday`, `stamp`, `today` and `dateOf` parameters, and `timeOf` is the sort key. Id uniqueness is not assumed.
- NaN: `parseInt`/`parseFloat` of text that is not a number yields NaN in the source. Form fields here are either empty or a number.
- IEEE-754 doubles. The calorie formula is computed on exact reals with half-up rounding. A double can land on the other side of a .5 boundary in rare cases.
- The ordering between React state updates and storage writes, and the in-place `push` of `addExerciseSet`. That push also alters the row object the previous state shares; the model gives the updated history as a new value.
- WorkoutLogger's `existingSession` state: it is not cleared when the editor is re-opened on another exercise without a session. The model opens a fresh editor each time.
- CalorieTracker's `getWeeklyData` day labels (`toLocaleDateString`) and chart colours.
- CalorieTracker.WeeklyData: `dateOf` is any function, so it does not state that consecutive day keys give different date strings.
- FitnessStore.GetWorkoutSessionsForExercise: does not state the relative order of sessions with the same time. JavaScript's sort keeps their input order.
- FitnessStore.GetExerciseHistoryByDateRange: days are integer keys. `new Date(str)` comparison of the stored date strings is not modelled.
- Calories.MaintenanceCalories: states the rounding bound, not the exact double result, for the reason above.
- FitnessStore.GetCurrentDayPlan: takes the weekday index as 0..6, which is all `getDay()` returns.

## Findings

| source | as written | input that shows it | evidently intended | confidence | as-written member | corrected member |
|---|---|---|---|---|---|---|
| src/components/WorkoutLogger.tsx:82 | `updateWorkoutSession(existingSession.id, sessionData)` passes the id string as the store's single `session` parameter (src/context/FitnessContext.tsx:332). `session.id` is then undefined, no stored session matches, and the unchanged list is rewritten. None of the modelled screens renders `WorkoutLogger`, so the defect is latent. | open the editor on an exercise with a session today, change any set, save: the stored session keeps its old sets | replace today's session with the edited data under its id | high, not executed | WorkoutLogger.SaveWorkoutAsWritten, WorkoutLogger.SavedEditsAreLost | WorkoutLogger.SaveWorkout |

=== FILE: calorie_tracker.dfy ===
/** The calorie screen: today's intake, the seven-day chart series, the
    entry and profile forms, and the deficit/surplus summary. */
module CalorieTracker {
  import opened Wrappers
  import opened Seqs
  import opened Text
  import opened Model
  import opened Calories
  import opened FitnessStore

  /** `reduce((sum, entry) => sum + entry.calories, 0)`. */
  function SumCalories(entries: seq<CalorieEntry>): int
    decreases |entries|
  {
    if entries == [] then 0 else entries[0].calories + SumCalories(entries[1..])
  }

  function OnDate(date: string): CalorieEntry -> bool {
    (e: CalorieEntry) => e.date == date
  }

  /** The calories logged for one calendar date. */
  function DayTotal(entries: seq<CalorieEntry>, date: string): int {
    SumCalories(Filter(entries, OnDate(date)))
  }

  lemma {:induction false} SumCaloriesConcat(a: seq<CalorieEntry>, b: seq<CalorieEntry>)
    ensures SumCalories(a + b) == SumCalories(a) + SumCalories(b)
    decreases |a|
  {
    if a == [] {
      assert a + b == b;
    } else {
      assert (a + b)[1..] == a[1..] + b;
      SumCaloriesConcat(a[1..], b);
    }
  }

  /** Logging one more entry raises that date's total by its calories and
      leaves every other date's total as it was. */
  lemma DayTotalSnoc(entries: seq<CalorieEntry>, e: CalorieEntry, date: string)
    ensures DayTotal(entries + [e], date) == DayTotal(entries, date) + (if e.date == date then e.calories else 0)
  {
    FilterSnoc(entries, e, OnDate(date));
    SumCaloriesConcat(Filter(entries, OnDate(date)), if e.date == date then [e] else []);
  }

  /** No entry on the date means a total of 0. */
  lemma {:induction false} DayTotalWithoutEntries(entries: seq<CalorieEntry>, date: string)
    ensures (forall i :: 0 <= i < |entries| ==> entries[i].date != date) ==> DayTotal(entries, date) == 0
  {
    if forall i :: 0 <= i < |entries| ==> entries[i].date != date {
      FilterNone(entries, OnDate(date));
    }
  }

  /** `getTodayCalories`: the calories of the entries dated today, which is 0
      when there are none. The first ensures names the date the total is
      taken for; what a day total is comes from `DayTotalWithoutEntries` (an
      empty day is 0) and `DayTotalSnoc` (each entry adds its calories to its
      own date only), which together fix `DayTotal` for every entry list. */
  function TodayCalories(entries: seq<CalorieEntry>, now: string): (r: int)
    ensures r == DayTotal(entries, DatePart(now))
    ensures (forall i :: 0 <= i < |entries| ==> entries[i].date != DatePart(now)) ==> r == 0
  {
    DayTotalWithoutEntries(entries, DatePart(now));
    DayTotal(entries, DatePart(now))
  }

  /** Adding an entry through the form counts toward today's total, and only
      toward today's total. */
  lemma NewEntryCountsToday(s: Store, draft: CalorieDraft, stamp: string, now: string)
    requires draft.date == DatePart(now)
    ensures TodayCalories(AddCalorieEntry(s, draft, stamp).store.calorieEntries, now)
      == TodayCalories(s.calorieEntries, now) + draft.calories
  {
    DayTotalSnoc(s.calorieEntries, CalorieEntry(stamp, draft.date, draft.calories, draft.meal, draft.food), DatePart(now));
  }

  /** The chart data of `getWeeklyData`: the seven day numbers oldest first,
      their calendar dates, the intake for each, and the maintenance line. */
  datatype WeeklySeries = WeeklySeries(days: seq<int>, dates: seq<string>, intake: seq<int>, maintenance: seq<int>)

  /** `getWeeklyData`: the six days before `today` and `today` itself, in
      order; each date's intake total, paired with seven copies of the
      maintenance estimate. `dateOf` renders a day number as its calendar
      date (the `toISOString().split('T')[0]` of that day). */
  method WeeklyData(entries: seq<CalorieEntry>, today: int, dateOf: int -> string, profile: Option<UserProfile>)
    returns (w: WeeklySeries)
    ensures |w.days| == 7 && |w.dates| == 7 && |w.intake| == 7 && |w.maintenance| == 7
    ensures forall i :: 0 <= i < 7 ==> w.days[i] == today - (6 - i)
    ensures w.days[6] == today
    ensures forall i, j :: 0 <= i < j < 7 ==> w.days[i] < w.days[j]
    ensures forall i :: 0 <= i < 7 ==> w.dates[i] == dateOf(w.days[i])
    ensures forall i :: 0 <= i < 7 ==> w.intake[i] == DayTotal(entries, w.dates[i])
    ensures forall i :: 0 <= i < 7 ==> w.maintenance[i] == MaintenanceCalories(profile)
    ensures forall now :: DatePart(now) == dateOf(today) ==> w.intake[6] == TodayCalories(entries, now)
  {
    var days: seq<int> := [];
    var dates: seq<string> := [];
    var intake: seq<int> := [];
    var i := 0;
    while i < 7
      invariant 0 <= i <= 7
      invariant |days| == i && |dates| == i && |intake| == i
      invariant forall k :: 0 <= k < i ==> days[k] == today - (6 - k)
      invariant forall k :: 0 <= k < i ==> dates[k] == dateOf(days[k])
      invariant forall k :: 0 <= k < i ==> intake[k] == DayTotal(entries, dates[k])
    {
      var day := today - (6 - i);
      days := days + [day];
      dates := dates + [dateOf(day)];
      intake := intake + [DayTotal(entries, dateOf(day))];
      i := i + 1;
    }
    var m := MaintenanceCalories(profile);
    w := WeeklySeries(days, dates, intake, [m, m, m, m, m, m, m]);
  }

  /** The add-entry form. `calories` is `None` while the field is empty and
      otherwise the number its text parses to. */
  datatype EntryForm = EntryForm(calories: Option<int>, meal: string, food: string)

  const MissingEntryField := "Please fill in all fields"

  /** `handleAddEntry`: refused when the calories or the food field is empty;
      otherwise an entry for today's calendar date is added. */
  function HandleAddEntry(s: Store, form: EntryForm, now: string, stamp: string): (r: Submitted)
    ensures r.Rejected? <==> form.calories.None? || form.food == ""
    ensures r.Rejected? ==> r.alert == MissingEntryField
    ensures r.Accepted? ==>
      && r.step.store.calorieEntries == s.calorieEntries + [CalorieEntry(stamp, DatePart(now), form.calories.value, form.meal, form.food)]
      && r.step.store == s.(calorieEntries := r.step.store.calorieEntries)
      && r.step.writes == [CalorieEntriesWrite(r.step.store.calorieEntries)]
  {
    if form.calories.None? || form.food == "" then Rejected(MissingEntryField)
    else Accepted(AddCalorieEntry(s, CalorieDraft(DatePart(now), form.calories.value, form.meal, form.food), stamp))
  }

  /** An entry the form accepts raises today's total by exactly its calories;
      a refused one changes nothing. */
  lemma AcceptedEntryCountsToday(s: Store, form: EntryForm, now: string, stamp: string)
    ensures var r := HandleAddEntry(s, form, now, stamp);
      r.Accepted? ==>
        TodayCalories(r.step.store.calorieEntries, now) == TodayCalories(s.calorieEntries, now) + form.calories.value
  {
    if !(form.calories.None? || form.food == "") {
      NewEntryCountsToday(s, CalorieDraft(DatePart(now), form.calories.value, form.meal, form.food), stamp, now);
    }
  }

  const MissingProfileField := "Please fill in all required fields"
  const NonPositiveProfileField := "Please enter valid positive numbers"

  /** `handleSaveProfile`: the profile is saved exactly when weight, height
      and age are all positive. A zero field is reported as missing (0 is
      falsy); otherwise a negative one is reported as invalid. */
  function HandleSaveProfile(s: Store, profile: UserProfile): (r: Submitted)
    ensures r.Accepted? <==> profile.weight > 0.0 && profile.height > 0.0 && profile.age > 0
    ensures r.Accepted? ==> r.step.store.profile == Some(profile) && r.step.store == s.(profile := Some(profile))
    ensures r.Accepted? ==> r.step.writes == [ProfileWrite(profile)]
    ensures r.Rejected? ==>
      r.alert == (if profile.weight == 0.0 || profile.height == 0.0 || profile.age == 0
                  then MissingProfileField else NonPositiveProfileField)
  {
    if profile.weight == 0.0 || profile.height == 0.0 || profile.age == 0 then Rejected(MissingProfileField)
    else if profile.weight <= 0.0 || profile.height <= 0.0 || profile.age <= 0 then Rejected(NonPositiveProfileField)
    else Accepted(SetUserProfile(s, profile))
  }

  /** Once the profile form is accepted, the maintenance estimate is the
      rounded Mifflin-St Jeor figure of that profile, not the 2000 used while
      no profile is saved. */
  lemma SavedProfileDrivesMaintenance(s: Store, profile: UserProfile)
    ensures var r := HandleSaveProfile(s, profile);
      r.Accepted? ==>
        && r.step.store.profile == Some(profile)
        && MaintenanceCalories(r.step.store.profile) == RoundHalfUp(Bmr(profile) * Multiplier(profile.activityLevel))
  {
  }

  datatype BalanceLabel = Deficit | Surplus

  /** The summary's third figure: maintenance minus today's intake, shown with
      a "+" and labelled a deficit when positive, otherwise a surplus. */
  datatype Balance = Balance(amount: int, kind: BalanceLabel, plusSign: bool)

  function CalorieBalance(maintenance: int, consumed: int): (r: Balance)
    ensures r.amount + consumed == maintenance
    ensures r.kind == Deficit <==> consumed < maintenance
    ensures r.plusSign <==> r.kind == Deficit
  {
    var amount := maintenance - consumed;
    Balance(amount, if amount > 0 then Deficit else Surplus, amount > 0)
  }

  /** Eating more never raises the balance, and once intake reaches
      maintenance every larger intake is a surplus too. */
  lemma CalorieBalanceMonotone(maintenance: int, c1: int, c2: int)
    requires c1 <= c2
    ensures CalorieBalance(maintenance, c2).amount <= CalorieBalance(maintenance, c1).amount
    ensures CalorieBalance(maintenance, c1).kind == Surplus ==> CalorieBalance(maintenance, c2).kind == Surplus
  {
  }

  /** Eating exactly the maintenance amount is shown as a surplus of 0. */
  lemma BalanceAtMaintenance(m: int)
    ensures CalorieBalance(m, m) == Balance(0, Surplus, false)
  {
  }
}

=== FILE: calories.dfy ===
/** The maintenance-calorie estimate: Mifflin-St Jeor basal metabolic rate
    times a fixed activity multiplier, rounded like `Math.round`.
    Arithmetic is exact (`real`); IEEE-754 doubles can land on the other
    side of a .5 boundary in rare cases. */
module Calories {
  import opened Wrappers
  import opened Model

  /** The estimate used while no profile has been saved. */
  const NoProfileMaintenance: int := 2000

  /** The fixed activity-multiplier table. */
  function Multiplier(level: ActivityLevel): real {
    match level
    case Sedentary => 1.2
    case Light => 1.375
    case Moderate => 1.55
    case Active => 1.725
    case VeryActive => 1.9
  }

  /** Activity levels in the table's order. */
  function Rank(level: ActivityLevel): int {
    match level
    case Sedentary => 0
    case Light => 1
    case Moderate => 2
    case Active => 3
    case VeryActive => 4
  }

  /** A more active level never has a smaller multiplier. */
  lemma MultiplierMonotone(a: ActivityLevel, b: ActivityLevel)
    requires Rank(a) <= Rank(b)
    ensures 1.2 <= Multiplier(a) <= Multiplier(b) <= 1.9
  {
  }

  /** The gender-specific constant of the Mifflin-St Jeor equation. */
  function GenderOffset(g: Gender): real {
    match g
    case Male => 5.0
    case Female => -161.0
  }

  /** Basal metabolic rate (kcal/day) by the Mifflin-St Jeor equation. */
  function Bmr(p: UserProfile): real {
    10.0 * p.weight + 6.25 * p.height - 5.0 * (p.age as real) + GenderOffset(p.gender)
  }

  /** `Math.round`: the nearest integer, halves rounded up (towards +infinity). */
  function RoundHalfUp(x: real): (r: int)
    ensures (r as real) - 0.5 <= x < (r as real) + 0.5
  {
    (x + 0.5).Floor
  }

  /** Rounding never reverses the order of two values. */
  lemma RoundHalfUpMonotone(x: real, y: real)
    requires x <= y
    ensures RoundHalfUp(x) <= RoundHalfUp(y)
  {
  }

  /** `getMaintenanceCalories`: 2000 with no profile; otherwise the BMR times
      the level's multiplier, rounded to the nearest integer with halves up. */
  function MaintenanceCalories(profile: Option<UserProfile>): (r: int)
    ensures profile.None? ==> r == NoProfileMaintenance
    ensures profile.Some? ==>
      var v := Bmr(profile.value) * Multiplier(profile.value.activityLevel);
      (r as real) - 0.5 <= v < (r as real) + 0.5
  {
    match profile
    case None => NoProfileMaintenance
    case Some(p) => RoundHalfUp(Bmr(p) * Multiplier(p.activityLevel))
  }

  /** A male profile: 70 kg, 170 cm, 25 years, moderately active:
      BMR 700 + 1062.5 - 125 + 5 = 1642.5, times 1.55 is 2545.875, so 2546. */
  lemma MaleReferenceProfile()
    ensures MaintenanceCalories(Some(UserProfile(70.0, 170.0, 25, Male, Moderate))) == 2546
  {
    assert Bmr(UserProfile(70.0, 170.0, 25, Male, Moderate)) == 1642.5;
  }

  /** A female profile: 60 kg, 165 cm, 30 years, sedentary:
      BMR 600 + 1031.25 - 150 - 161 = 1320.25, times 1.2 is 1584.3, so 1584. */
  lemma FemaleReferenceProfile()
    ensures MaintenanceCalories(Some(UserProfile(60.0, 165.0, 30, Female, Sedentary))) == 1584
  {
    assert Bmr(UserProfile(60.0, 165.0, 30, Female, Sedentary)) == 1320.25;
  }

  /** A profile landing exactly on a half: 86.1 kg, 165 cm, 30 years, female,
      sedentary gives BMR 1581.25, times 1.2 is 1897.5, and the half rounds up. */
  lemma HalfRoundsUp()
    ensures MaintenanceCalories(Some(UserProfile(86.1, 165.0, 30, Female, Sedentary))) == 1898
  {
    assert Bmr(UserProfile(86.1, 165.0, 30, Female, Sedentary)) == 1581.25;
  }

  /** With a non-negative BMR, raising the activity level (all else equal)
      never lowers the estimate. */
  lemma {:induction false} MoreActiveNeverLower(p: UserProfile, level: ActivityLevel)
    requires Bmr(p) >= 0.0
    requires Rank(p.activityLevel) <= Rank(level)
    ensures MaintenanceCalories(Some(p)) <= MaintenanceCalories(Some(p.(activityLevel := level)))
  {
    var q := p.(activityLevel := level);
    assert Bmr(q) == Bmr(p);
    MultiplierMonotone(p.activityLevel, level);
    assert Bmr(p) * Multiplier(p.activityLevel) <= Bmr(p) * Multiplier(level);
    RoundHalfUpMonotone(Bmr(p) * Multiplier(p.activityLevel), Bmr(q) * Multiplier(level));
  }

  /** For the same body measurements the female estimate is the male estimate
      less 166 kcal of BMR scaled by the multiplier, so it is never higher. */
  lemma FemaleNeverAboveMale(p: UserProfile)
    requires p.gender == Female
    ensures Bmr(p.(gender := Male)) - Bmr(p) == 166.0
    ensures MaintenanceCalories(Some(p)) <= MaintenanceCalories(Some(p.(gender := Male)))
  {
    var q := p.(gender := Male);
    MultiplierMonotone(Sedentary, p.activityLevel);
    assert Bmr(p) * Multiplier(p.activityLevel) <= Bmr(q) * Multiplier(q.activityLevel);
    RoundHalfUpMonotone(Bmr(p) * Multiplier(p.activityLevel), Bmr(q) * Multiplier(q.activityLevel));
  }
}

=== FILE: custom_exercises.dfy ===
/** The exercise-management screen: adding a custom exercise, deleting only
    custom ones, and listing the catalog by category. */
module CustomExercisesScreen {
  import opened Wrappers
  import opened Seqs
  import opened Text
  import opened Model
  import opened FitnessStore

  /** The categories the screen lists and offers in its menu, in order. */
  const Categories: seq<string> := ["chest", "back", "shoulders", "biceps", "triceps", "forearms", "legs", "abs"]

  const MissingName := "Please enter an exercise name"
  const PresetNotDeletable := "Cannot delete preset exercises"

  /** `handleAddExercise`: refused when the name is blank; otherwise a custom
      exercise with the trimmed name, the chosen category and the store's
      defaults (3 sets, 10 reps, weight 0) is appended. */
  function HandleAddExercise(s: Store, name: string, category: string, stamp: string): (r: Submitted)
    ensures r.Rejected? <==> AllSpace(name)
    ensures r.Rejected? ==> r.alert == MissingName
    ensures r.Accepted? ==>
      && |r.step.store.exercises| == |s.exercises| + 1
      && r.step.store.exercises[..|s.exercises|] == s.exercises
      && r.step.store.exercises[|s.exercises|]
        == Exercise(CustomId(stamp), Trim(name), category, None, None, true, Some(3), Some(10), Some(0.0))
      && r.step.store == s.(exercises := r.step.store.exercises)
      && r.step.writes == [CustomExercisesWrite(CustomOnly(r.step.store.exercises))]
  {
    TrimEmptyIffBlank(name);
    if Trim(name) == [] then Rejected(MissingName)
    else Accepted(AddCustomExercise(s, ExerciseDraft(Trim(name), category, None, None, None, None, None), stamp))
  }

  /** The delete action is shown for custom exercises only. */
  predicate OffersDelete(exercise: Exercise) {
    exercise.isCustom
  }

  /** `handleDeleteExercise` (after the confirmation): a preset is refused
      and never reaches the store; a custom exercise goes through the store's
      full delete cascade. */
  function HandleDeleteExercise(s: Store, exercise: Exercise): (r: Submitted)
    ensures r.Rejected? <==> !exercise.isCustom
    ensures r.Rejected? ==> r.alert == PresetNotDeletable
    ensures r.Accepted? ==> r.step == DeleteCustomExercise(s, exercise.id)
  {
    if !exercise.isCustom then Rejected(PresetNotDeletable)
    else Accepted(DeleteCustomExercise(s, exercise.id))
  }

  /** Whatever the screen lets a user delete, a preset of the catalog survives
      it, unless a custom exercise was given a preset's id. */
  lemma {:induction false} PresetsSurviveScreenDelete(s: Store, exercise: Exercise, preset: Exercise)
    requires OffersDelete(exercise)
    requires preset in s.exercises && !preset.isCustom && preset.id != exercise.id
    ensures preset in HandleDeleteExercise(s, exercise).step.store.exercises
  {
  }

  function InCategory(category: string): Exercise -> bool {
    (e: Exercise) => e.category == category
  }

  /** One category card: the catalog's exercises of that category, in catalog
      order; an empty result renders no card. */
  function ExercisesByCategory(exercises: seq<Exercise>, category: string): (r: seq<Exercise>)
    ensures forall e :: e in r <==> e in exercises && e.category == category
    ensures |r| <= |exercises|
  {
    Filter(exercises, InCategory(category))
  }

  /** Listing by category keeps catalog order: an exercise appended to the
      catalog lands at the end of its own category and nowhere else. */
  lemma ExercisesByCategoryAppend(exercises: seq<Exercise>, e: Exercise, category: string)
    ensures ExercisesByCategory(exercises + [e], category)
      == ExercisesByCategory(exercises, category) + (if e.category == category then [e] else [])
  {
    FilterSnoc(exercises, e, InCategory(category));
  }

  /** The whole screen: the category cards in menu order. An exercise whose
      category is not on the menu (the "cardio" presets, or a free-text
      category typed on the workout screen) is on no card. */
  function ListedExercises(exercises: seq<Exercise>, categories: seq<string>): (r: seq<Exercise>)
    ensures forall e :: e in r <==> e in exercises && e.category in categories
    decreases |categories|
  {
    if categories == [] then []
    else ExercisesByCategory(exercises, categories[0]) + ListedExercises(exercises, categories[1..])
  }

  /** The preset cardio exercises are in the catalog but on no card of this
      screen, since "cardio" is not one of its categories. */
  lemma CardioIsNeverListed(exercises: seq<Exercise>, e: Exercise)
    requires e in exercises && e.category == "cardio"
    ensures e !in ListedExercises(exercises, Categories)
  {
    assert "cardio" !in Categories;
  }
}

=== FILE: fitness_store.dfy ===
/** The fitness state store: every collection the app owns, the operations
    that transform them, and the storage writes each operation issues.

    An operation is a pure function from the current store to a `Step`: the
    next store plus the `AsyncStorage.setItem` calls it makes, in order. The
    clock and id generator are parameters: `stamp` is the text of
    `Date.now()`, `now` an ISO timestamp, `weekday` the value of `getDay()`.
    Storage failures are caught and logged by the code and never change the
    in-memory state, so they are not modelled. */
module FitnessStore {
  import opened Wrappers
  import opened Seqs
  import opened Text
  import opened Model
  import opened Defaults

  datatype Store = Store(
    profile: Option<UserProfile>,
    calorieEntries: seq<CalorieEntry>,
    exercises: seq<Exercise>,
    workoutEntries: seq<WorkoutEntry>,
    plan: WorkoutPlan,
    history: seq<ExerciseData>,
    sessions: seq<WorkoutSession>)

  /** One storage write: the key and the value serialised under it. */
  datatype Write =
    | ProfileWrite(profile: UserProfile)
    | CalorieEntriesWrite(entries: seq<CalorieEntry>)
    | CustomExercisesWrite(custom: seq<Exercise>)
    | WorkoutEntriesWrite(workoutEntries: seq<WorkoutEntry>)
    | PlanWrite(plan: WorkoutPlan)
    | HistoryWrite(history: seq<ExerciseData>)
    | SessionsWrite(sessions: seq<WorkoutSession>)

  datatype Step = Step(store: Store, writes: seq<Write>)

  /** What a screen action does: it is refused with the alert text it shows,
      or it goes through and takes the store a step further. */
  datatype Submitted = Rejected(alert: string) | Accepted(step: Step)

  /** The fields a caller supplies for a calorie entry (all but the id). */
  datatype CalorieDraft = CalorieDraft(date: string, calories: int, meal: string, food: string)

  /** The fields a caller supplies for a custom exercise (all but id and `isCustom`). */
  datatype ExerciseDraft = ExerciseDraft(
    name: string,
    category: string,
    description: Option<string>,
    instructions: Option<string>,
    defaultSets: Option<int>,
    defaultReps: Option<int>,
    defaultWeight: Option<real>)

  /** The fields a caller supplies for a workout session (all but the id). */
  datatype SessionDraft = SessionDraft(exerciseId: Id, date: string, sets: seq<WorkoutSet>, notes: Option<string>)

  /** The fields a caller supplies for a legacy workout entry (all but the id). */
  datatype EntryDraft = EntryDraft(exerciseId: Id, date: string, sets: seq<WorkoutSet>)

  // ---------------------------------------------------------------------------
  // The exercise catalog
  // ---------------------------------------------------------------------------

  /** The id the code generates for a custom exercise: `custom_<Date.now()>`. */
  function CustomId(stamp: string): Id {
    "custom_" + stamp
  }

  function IsCustom(): Exercise -> bool {
    (e: Exercise) => e.isCustom
  }

  /** The list persisted under `customExercises`: the custom part of the catalog. */
  function CustomOnly(exercises: seq<Exercise>): (r: seq<Exercise>)
    ensures forall e :: e in r ==> e.isCustom && e in exercises
    ensures forall e :: e in exercises && e.isCustom ==> e in r
  {
    Filter(exercises, IsCustom())
  }

  /** A catalog laid out as the store keeps it: the presets, in order, then
      custom exercises only. */
  predicate CatalogShape(exercises: seq<Exercise>) {
    && |Presets| <= |exercises|
    && exercises[..|Presets|] == Presets
    && forall i :: |Presets| <= i < |exercises| ==> exercises[i].isCustom
  }

  /** The catalog `loadData` builds: the presets followed by the stored custom
      list when one is stored, else the presets alone. */
  function LoadCatalog(stored: Option<seq<Exercise>>): (r: seq<Exercise>)
    ensures |Presets| <= |r| && r[..|Presets|] == Presets
    ensures stored.Some? ==> r[|Presets|..] == stored.value
    ensures stored.None? ==> r == Presets
  {
    match stored
    case Some(custom) => Presets + custom
    case None => Presets
  }

  /** Persisting the custom part of a well-shaped catalog and loading it
      again gives back the same catalog: presets are never written, and
      nothing custom is lost. */
  lemma CatalogRoundTrip(exercises: seq<Exercise>)
    requires CatalogShape(exercises)
    ensures LoadCatalog(Some(CustomOnly(exercises))) == exercises
  {
    PresetsAreNotCustom();
    CustomPartOfLayout(Presets, exercises);
  }

  /** The custom part of a catalog laid out as `fixed` (nothing custom) then
      custom exercises only is exactly what follows `fixed`. */
  lemma {:induction false} CustomPartOfLayout(fixed: seq<Exercise>, exercises: seq<Exercise>)
    requires |fixed| <= |exercises| && exercises[..|fixed|] == fixed
    requires forall i :: 0 <= i < |fixed| ==> !fixed[i].isCustom
    requires forall i :: |fixed| <= i < |exercises| ==> exercises[i].isCustom
    ensures CustomOnly(exercises) == exercises[|fixed|..]
    ensures fixed + CustomOnly(exercises) == exercises
  {
    var custom := exercises[|fixed|..];
    assert exercises == fixed + custom;
    FilterConcat(fixed, custom, IsCustom());
    FilterNone(fixed, IsCustom());
    FilterAll(custom, IsCustom());
  }

  /** Whether some exercise of the catalog has this id. */
  predicate HasId(exercises: seq<Exercise>, id: Id) {
    exists i :: 0 <= i < |exercises| && exercises[i].id == id
  }

  function IdIs(id: Id): Exercise -> bool {
    (e: Exercise) => e.id == id
  }

  /** `exercises.find(ex => ex.id === id)`: the first exercise with this id. */
  function Lookup(exercises: seq<Exercise>, id: Id): (r: Option<Exercise>)
    ensures r.Some? <==> HasId(exercises, id)
    ensures r.Some? ==> r.value.id == id
    ensures r.Some? ==> exists i :: (0 <= i < |exercises| && exercises[i] == r.value
      && forall j :: 0 <= j < i ==> exercises[j].id != id)
  {
    match FindIndex(exercises, IdIs(id))
    case Some(i) => Some(exercises[i])
    case None => None
  }

  /** `addExercise`: appends the exercise marked custom, keeping its id when it
      has one and generating `custom_<stamp>` when its id is empty. Only the
      custom part of the new catalog is written. The set, rep and weight
      defaults are kept exactly as given. */
  function AddExercise(s: Store, exercise: Exercise, stamp: string): (r: Step)
    ensures |r.store.exercises| == |s.exercises| + 1
    ensures r.store.exercises[..|s.exercises|] == s.exercises
    ensures var added := r.store.exercises[|s.exercises|];
      && added.isCustom
      && added.id == (if exercise.id == "" then CustomId(stamp) else exercise.id)
      && added.(id := exercise.id, isCustom := exercise.isCustom) == exercise
    ensures r.store == s.(exercises := r.store.exercises)
    ensures r.writes == [CustomExercisesWrite(CustomOnly(r.store.exercises))]
  {
    var added := exercise.(id := if exercise.id == "" then CustomId(stamp) else exercise.id, isCustom := true);
    var exercises := s.exercises + [added];
    Step(s.(exercises := exercises), [CustomExercisesWrite(CustomOnly(exercises))])
  }

  /** `addCustomExercise`: appends a custom exercise with id `custom_<stamp>`;
      a default that is missing or 0 becomes 3 sets, 10 reps, weight 0. */
  function AddCustomExercise(s: Store, draft: ExerciseDraft, stamp: string): (r: Step)
    ensures |r.store.exercises| == |s.exercises| + 1
    ensures r.store.exercises[..|s.exercises|] == s.exercises
    ensures var added := r.store.exercises[|s.exercises|];
      && added.id == CustomId(stamp)
      && added.isCustom
      && added.name == draft.name && added.category == draft.category
      && added.description == draft.description && added.instructions == draft.instructions
      && added.defaultSets.Some? && added.defaultReps.Some? && added.defaultWeight.Some?
      && (draft.defaultSets.None? || draft.defaultSets == Some(0) ==> added.defaultSets == Some(3))
      && (draft.defaultReps.None? || draft.defaultReps == Some(0) ==> added.defaultReps == Some(10))
      && (draft.defaultWeight.None? || draft.defaultWeight == Some(0.0) ==> added.defaultWeight == Some(0.0))
      && (draft.defaultSets.Some? && draft.defaultSets.value != 0 ==> added.defaultSets == draft.defaultSets)
      && (draft.defaultReps.Some? && draft.defaultReps.value != 0 ==> added.defaultReps == draft.defaultReps)
      && (draft.defaultWeight.Some? && draft.defaultWeight.value != 0.0 ==> added.defaultWeight == draft.defaultWeight)
    ensures r.store == s.(exercises := r.store.exercises)
    ensures r.writes == [CustomExercisesWrite(CustomOnly(r.store.exercises))]
  {
    var added := Exercise(
      CustomId(stamp), draft.name, draft.category, draft.description, draft.instructions, true,
      Some(IntOr(draft.defaultSets, 3)), Some(IntOr(draft.defaultReps, 10)), Some(RealOr(draft.defaultWeight, 0.0)));
    var exercises := s.exercises + [added];
    Step(s.(exercises := exercises), [CustomExercisesWrite(CustomOnly(exercises))])
  }

  /** `updateExercise`: every exercise with the given id is replaced by the
      given one; all others, and their positions, are untouched. */
  function UpdateExercise(s: Store, exercise: Exercise): (r: Step)
    ensures |r.store.exercises| == |s.exercises|
    ensures forall i :: 0 <= i < |s.exercises| ==>
      r.store.exercises[i] == (if s.exercises[i].id == exercise.id then exercise else s.exercises[i])
    ensures r.store == s.(exercises := r.store.exercises)
    ensures r.writes == [CustomExercisesWrite(CustomOnly(r.store.exercises))]
  {
    var exercises := Replace(s.exercises, IdIs(exercise.id), exercise);
    Step(s.(exercises := exercises), [CustomExercisesWrite(CustomOnly(exercises))])
  }

  /** Replacing, by id, an exercise that `fixed` does not carry with a custom
      one keeps `fixed` in front and only custom exercises after it. */
  lemma {:induction false} UpdateKeepsLayout(fixed: seq<Exercise>, exercises: seq<Exercise>, exercise: Exercise)
    requires |fixed| <= |exercises| && exercises[..|fixed|] == fixed
    requires forall i :: |fixed| <= i < |exercises| ==> exercises[i].isCustom
    requires forall i :: 0 <= i < |fixed| ==> fixed[i].id != exercise.id
    requires exercise.isCustom
    ensures var r := Replace(exercises, IdIs(exercise.id), exercise);
      && |fixed| <= |r| && r[..|fixed|] == fixed
      && forall i :: |fixed| <= i < |r| ==> r[i].isCustom
  {
    var r := Replace(exercises, IdIs(exercise.id), exercise);
    forall i | 0 <= i < |fixed| ensures r[i] == fixed[i] {
      assert exercises[i] == fixed[i];
    }
  }

  /** Editing a custom exercise keeps the preset-then-custom layout, so the
      edit survives a reload (`CatalogRoundTrip`). */
  lemma UpdateExerciseKeepsShape(s: Store, exercise: Exercise)
    requires CatalogShape(s.exercises)
    requires exercise.isCustom && forall i :: 0 <= i < |Presets| ==> Presets[i].id != exercise.id
    ensures CatalogShape(UpdateExercise(s, exercise).store.exercises)
  {
    UpdateKeepsLayout(Presets, s.exercises, exercise);
  }

  /** Updating twice with the same exercise is updating once. */
  lemma UpdateExerciseIdempotent(s: Store, exercise: Exercise)
    ensures UpdateExercise(UpdateExercise(s, exercise).store, exercise) == UpdateExercise(s, exercise)
  {
  }

  function NotId(id: Id): Id -> bool {
    (x: Id) => x != id
  }

  function OtherExercise(id: Id): Exercise -> bool {
    (e: Exercise) => e.id != id
  }

  function OtherRow(id: Id): ExerciseData -> bool {
    (row: ExerciseData) => row.exerciseId != id
  }

  function OtherSession(id: Id): WorkoutSession -> bool {
    (w: WorkoutSession) => w.exerciseId != id
  }

  /** `deleteExercise`: the id disappears from the catalog, from every day of
      the plan, from the history rows and from the sessions; everything else
      survives. The four collections are then written in that order. The
      store does not check `isCustom`: a preset id is deleted just the same. */
  function DeleteExercise(s: Store, id: Id): (r: Step)
    ensures forall e :: e in r.store.exercises <==> e in s.exercises && e.id != id
    ensures r.store.plan.Keys == s.plan.Keys
    ensures forall d :: d in s.plan ==>
      forall x :: x in r.store.plan[d] <==> x in s.plan[d] && x != id
    ensures forall row :: row in r.store.history <==> row in s.history && row.exerciseId != id
    ensures forall w :: w in r.store.sessions <==> w in s.sessions && w.exerciseId != id
    ensures r.store.profile == s.profile && r.store.calorieEntries == s.calorieEntries
    ensures r.store.workoutEntries == s.workoutEntries
    ensures r.writes == [
      CustomExercisesWrite(CustomOnly(r.store.exercises)), PlanWrite(r.store.plan),
      HistoryWrite(r.store.history), SessionsWrite(r.store.sessions)]
  {
    var exercises := Filter(s.exercises, OtherExercise(id));
    var plan := map d | d in s.plan :: Filter(s.plan[d], NotId(id));
    var history := Filter(s.history, OtherRow(id));
    var sessions := Filter(s.sessions, OtherSession(id));
    Step(
      s.(exercises := exercises, plan := plan, history := history, sessions := sessions),
      [CustomExercisesWrite(CustomOnly(exercises)), PlanWrite(plan), HistoryWrite(history), SessionsWrite(sessions)])
  }

  /** `deleteCustomExercise`: the same cascade as `deleteExercise`. */
  function DeleteCustomExercise(s: Store, id: Id): (r: Step)
    ensures r == DeleteExercise(s, id)
  {
    var exercises := Filter(s.exercises, OtherExercise(id));
    var plan := map d | d in s.plan :: Filter(s.plan[d], NotId(id));
    var history := Filter(s.history, OtherRow(id));
    var sessions := Filter(s.sessions, OtherSession(id));
    Step(
      s.(exercises := exercises, plan := plan, history := history, sessions := sessions),
      [CustomExercisesWrite(CustomOnly(exercises)), PlanWrite(plan), HistoryWrite(history), SessionsWrite(sessions)])
  }

  /** The survivors of a delete keep their relative order: deleting from a
      catalog split in two is deleting from each part. */
  lemma DeleteKeepsOrder(s: Store, id: Id, front: seq<Exercise>, back: seq<Exercise>)
    requires s.exercises == front + back
    ensures DeleteExercise(s, id).store.exercises
      == DeleteExercise(s.(exercises := front), id).store.exercises
       + DeleteExercise(s.(exercises := back), id).store.exercises
  {
    FilterConcat(front, back, OtherExercise(id));
  }

  /** The history rows that survive a delete keep their relative order. */
  lemma DeleteKeepsHistoryOrder(s: Store, id: Id, front: seq<ExerciseData>, back: seq<ExerciseData>)
    requires s.history == front + back
    ensures DeleteExercise(s, id).store.history
      == DeleteExercise(s.(history := front), id).store.history
       + DeleteExercise(s.(history := back), id).store.history
  {
    FilterConcat(front, back, OtherRow(id));
  }

  /** The sessions that survive a delete keep their relative order. */
  lemma DeleteKeepsSessionOrder(s: Store, id: Id, front: seq<WorkoutSession>, back: seq<WorkoutSession>)
    requires s.sessions == front + back
    ensures DeleteExercise(s, id).store.sessions
      == DeleteExercise(s.(sessions := front), id).store.sessions
       + DeleteExercise(s.(sessions := back), id).store.sessions
  {
    FilterConcat(front, back, OtherSession(id));
  }

  /** On every day of the plan, the ids that survive a delete keep their
      relative order: deleting from a day split in two is deleting from each
      part. */
  lemma DeleteKeepsDayOrder(s: Store, id: Id, day: Day, front: seq<Id>, back: seq<Id>)
    requires day in s.plan && s.plan[day] == front + back
    ensures day in DeleteExercise(s, id).store.plan
    ensures DeleteExercise(s, id).store.plan[day]
      == DeleteExercise(s.(plan := s.plan[day := front]), id).store.plan[day]
       + DeleteExercise(s.(plan := s.plan[day := back]), id).store.plan[day]
  {
    FilterConcat(front, back, NotId(id));
  }

  /** Deleting an id that occurs nowhere changes no collection. */
  lemma {:induction false} DeleteAbsentChangesNothing(s: Store, id: Id)
    requires forall i :: 0 <= i < |s.exercises| ==> s.exercises[i].id != id
    requires forall d :: d in s.plan ==> id !in s.plan[d]
    requires forall i :: 0 <= i < |s.history| ==> s.history[i].exerciseId != id
    requires forall i :: 0 <= i < |s.sessions| ==> s.sessions[i].exerciseId != id
    ensures DeleteExercise(s, id).store == s
  {
    FilterAll(s.exercises, OtherExercise(id));
    FilterAll(s.history, OtherRow(id));
    FilterAll(s.sessions, OtherSession(id));
    forall d | d in s.plan
      ensures Filter(s.plan[d], NotId(id)) == s.plan[d]
    {
      FilterAll(s.plan[d], NotId(id));
    }
  }

  /** Adding an exercise keeps the catalog's preset-then-custom layout. */
  lemma AddExerciseKeepsShape(s: Store, exercise: Exercise, stamp: string)
    requires CatalogShape(s.exercises)
    ensures CatalogShape(AddExercise(s, exercise, stamp).store.exercises)
  {
    var r := AddExercise(s, exercise, stamp).store.exercises;
    assert r[..|Presets|] == s.exercises[..|Presets|];
  }

  /** Adding a custom exercise keeps the catalog's preset-then-custom layout. */
  lemma AddCustomExerciseKeepsShape(s: Store, draft: ExerciseDraft, stamp: string)
    requires CatalogShape(s.exercises)
    ensures CatalogShape(AddCustomExercise(s, draft, stamp).store.exercises)
  {
    var r := AddCustomExercise(s, draft, stamp).store.exercises;
    assert r[..|Presets|] == s.exercises[..|Presets|];
  }

  /** Deleting an id no preset carries keeps the preset-then-custom layout. */
  lemma DeleteKeepsShape(s: Store, id: Id)
    requires CatalogShape(s.exercises)
    requires forall i :: 0 <= i < |Presets| ==> Presets[i].id != id
    ensures CatalogShape(DeleteExercise(s, id).store.exercises)
  {
    DeleteKeepsLayout(Presets, s.exercises, id);
  }

  /** Deleting an id `fixed` does not carry keeps `fixed` in front and
      leaves only custom exercises after it. */
  lemma {:induction false} DeleteKeepsLayout(fixed: seq<Exercise>, exercises: seq<Exercise>, id: Id)
    requires |fixed| <= |exercises| && exercises[..|fixed|] == fixed
    requires forall i :: |fixed| <= i < |exercises| ==> exercises[i].isCustom
    requires forall i :: 0 <= i < |fixed| ==> fixed[i].id != id
    ensures var r := Filter(exercises, OtherExercise(id));
      && |fixed| <= |r| && r[..|fixed|] == fixed
      && forall i :: |fixed| <= i < |r| ==> r[i].isCustom
  {
    var custom := exercises[|fixed|..];
    assert exercises == fixed + custom;
    FilterConcat(fixed, custom, OtherExercise(id));
    FilterAll(fixed, OtherExercise(id));
    var r := Filter(exercises, OtherExercise(id));
    var kept := Filter(custom, OtherExercise(id));
    assert r == fixed + kept;
    assert r[..|fixed|] == fixed;
    forall i | |fixed| <= i < |r| ensures r[i].isCustom {
      assert r[i] == kept[i - |fixed|];
      assert kept[i - |fixed|] in custom;
    }
  }

  // ---------------------------------------------------------------------------
  // The weekly plan
  // ---------------------------------------------------------------------------

  /** No id occurs twice in the list. */
  predicate NoDuplicates(ids: seq<Id>) {
    forall i, j :: 0 <= i < j < |ids| ==> ids[i] != ids[j]
  }

  /** `updateWorkoutPlan`: the day's list is replaced wholesale. */
  function UpdateWorkoutPlan(s: Store, day: Day, ids: seq<Id>): (r: Step)
    ensures DayIds(r.store.plan, day) == ids
    ensures forall d :: d != day ==> DayIds(r.store.plan, d) == DayIds(s.plan, d)
    ensures r.store.plan.Keys == s.plan.Keys + {day}
    ensures r.store == s.(plan := r.store.plan)
    ensures r.writes == [PlanWrite(r.store.plan)]
  {
    var plan := s.plan[day := ids];
    Step(s.(plan := plan), [PlanWrite(plan)])
  }

  /** Writing back a day's own list changes no day of the plan. */
  lemma UpdateWorkoutPlanWithSameListKeepsDays(s: Store, day: Day)
    ensures forall d :: DayIds(UpdateWorkoutPlan(s, day, DayIds(s.plan, day)).store.plan, d) == DayIds(s.plan, d)
  {
  }

  /** `addExerciseToDay`: appends the id to the day unless it is already
      there, in which case nothing changes and nothing is written. */
  function AddExerciseToDay(s: Store, day: Day, id: Id): (r: Step)
    ensures id in DayIds(s.plan, day) ==> r == Step(s, [])
    ensures id !in DayIds(s.plan, day) ==>
      && DayIds(r.store.plan, day) == DayIds(s.plan, day) + [id]
      && r.store.plan.Keys == s.plan.Keys + {day}
      && r.writes == [PlanWrite(r.store.plan)]
    ensures forall d :: d != day ==> DayIds(r.store.plan, d) == DayIds(s.plan, d)
    ensures id in DayIds(r.store.plan, day)
    ensures r.store == s.(plan := r.store.plan)
  {
    var current := DayIds(s.plan, day);
    if id in current then Step(s, [])
    else
      var plan := s.plan[day := current + [id]];
      Step(s.(plan := plan), [PlanWrite(plan)])
  }

  /** Adding the same id to the same day twice is adding it once. */
  lemma AddExerciseToDayIdempotent(s: Store, day: Day, id: Id)
    ensures var once := AddExerciseToDay(s, day, id).store;
      AddExerciseToDay(once, day, id) == Step(once, [])
  {
  }

  /** The add path never creates a duplicate within a day. */
  lemma AddExerciseToDayKeepsNoDuplicates(s: Store, day: Day, id: Id)
    requires NoDuplicates(DayIds(s.plan, day))
    ensures NoDuplicates(DayIds(AddExerciseToDay(s, day, id).store.plan, day))
  {
    var current := DayIds(s.plan, day);
    if id !in current {
      var next := current + [id];
      forall i, j | 0 <= i < j < |next| ensures next[i] != next[j] {
        if j == |current| {
          assert next[i] == current[i];
        }
      }
    }
  }

  /** `removeExerciseFromDay`: every occurrence of the id leaves that day; the
      other ids of the day stay, in order; other days are untouched. */
  function RemoveExerciseFromDay(s: Store, day: Day, id: Id): (r: Step)
    ensures id !in DayIds(r.store.plan, day)
    ensures forall x :: x in DayIds(r.store.plan, day) <==> x in DayIds(s.plan, day) && x != id
    ensures |DayIds(r.store.plan, day)| <= |DayIds(s.plan, day)|
    ensures forall d :: d != day ==> DayIds(r.store.plan, d) == DayIds(s.plan, d)
    ensures r.store.plan.Keys == s.plan.Keys + {day}
    ensures r.store == s.(plan := r.store.plan)
    ensures r.writes == [PlanWrite(r.store.plan)]
  {
    var plan := s.plan[day := Filter(DayIds(s.plan, day), NotId(id))];
    Step(s.(plan := plan), [PlanWrite(plan)])
  }

  /** The ids that stay on the day keep their relative order: removing from
      a day split in two is removing from each part. */
  lemma RemoveKeepsOrder(s: Store, day: Day, id: Id, front: seq<Id>, back: seq<Id>)
    requires DayIds(s.plan, day) == front + back
    ensures DayIds(RemoveExerciseFromDay(s, day, id).store.plan, day)
      == DayIds(RemoveExerciseFromDay(s.(plan := s.plan[day := front]), day, id).store.plan, day)
       + DayIds(RemoveExerciseFromDay(s.(plan := s.plan[day := back]), day, id).store.plan, day)
  {
    FilterConcat(front, back, NotId(id));
  }

  /** Removing an id the day does not hold leaves the day's list as it was. */
  lemma {:induction false} RemoveAbsentKeepsDay(s: Store, day: Day, id: Id)
    requires id !in DayIds(s.plan, day)
    ensures DayIds(RemoveExerciseFromDay(s, day, id).store.plan, day) == DayIds(s.plan, day)
  {
    FilterAll(DayIds(s.plan, day), NotId(id));
  }

  /** Adding an id the day lacks and then removing it restores the day. */
  lemma {:induction false} AddThenRemoveRestoresDay(s: Store, day: Day, id: Id)
    requires id !in DayIds(s.plan, day)
    ensures var added := AddExerciseToDay(s, day, id).store;
      DayIds(RemoveExerciseFromDay(added, day, id).store.plan, day) == DayIds(s.plan, day)
  {
    var current := DayIds(s.plan, day);
    FilterSnoc(current, id, NotId(id));
    FilterAll(current, NotId(id));
  }

  function Known(exercises: seq<Exercise>): Id -> bool {
    (id: Id) => HasId(exercises, id)
  }

  /** The ids of the list that name some exercise, in list order. */
  function KnownIds(ids: seq<Id>, exercises: seq<Exercise>): seq<Id> {
    Filter(ids, Known(exercises))
  }

  /** `ids.map(id => exercises.find(...)).filter(Boolean)`: each id resolved to
      the first exercise carrying it; ids with no exercise are dropped. */
  function Resolve(ids: seq<Id>, exercises: seq<Exercise>): (r: seq<Exercise>)
    ensures |r| == |KnownIds(ids, exercises)| <= |ids|
    ensures forall i :: 0 <= i < |r| ==> Lookup(exercises, KnownIds(ids, exercises)[i]) == Some(r[i])
    decreases |ids|
  {
    if ids == [] then []
    else
      match Lookup(exercises, ids[0])
      case Some(e) => [e] + Resolve(ids[1..], exercises)
      case None => Resolve(ids[1..], exercises)
  }

  /** When every id of the list names an exercise nothing is dropped: each
      id resolves, in order, to the first exercise carrying it. */
  lemma {:induction false} ResolveAllKnown(ids: seq<Id>, exercises: seq<Exercise>)
    requires forall i :: 0 <= i < |ids| ==> HasId(exercises, ids[i])
    ensures |Resolve(ids, exercises)| == |ids|
    ensures forall i :: 0 <= i < |ids| ==> Lookup(exercises, ids[i]) == Some(Resolve(ids, exercises)[i])
  {
    FilterAll(ids, Known(exercises));
  }

  /** An id on the list that names an exercise resolves to the first
      exercise carrying it, somewhere in the result. */
  lemma {:induction false} KnownIdResolves(ids: seq<Id>, exercises: seq<Exercise>, id: Id)
    requires id in ids && HasId(exercises, id)
    ensures Lookup(exercises, id).value in Resolve(ids, exercises)
  {
    var known := KnownIds(ids, exercises);
    assert Known(exercises)(id);
    assert id in known;
    var i :| 0 <= i < |known| && known[i] == id;
    assert Lookup(exercises, known[i]) == Some(Resolve(ids, exercises)[i]);
  }

  /** `getCurrentDayPlan`: the exercises of today's plan that exist in the
      catalog, in plan order; dangling ids are dropped, so the list is never
      longer than the day's id list. `weekday` is `Date.getDay()`. */
  function GetCurrentDayPlan(s: Store, weekday: int): (r: seq<Exercise>)
    requires 0 <= weekday < 7
    ensures var ids := DayIds(s.plan, DayOfIndex(weekday));
      && |r| == |KnownIds(ids, s.exercises)| <= |ids|
      && (forall i :: 0 <= i < |r| ==> Lookup(s.exercises, KnownIds(ids, s.exercises)[i]) == Some(r[i]))
    ensures forall e :: e in r ==> e in s.exercises && e.id in DayIds(s.plan, DayOfIndex(weekday))
  {
    var ids := DayIds(s.plan, DayOfIndex(weekday));
    var r := Resolve(ids, s.exercises);
    forall e | e in r ensures e in s.exercises && e.id in ids {
      var i :| 0 <= i < |r| && r[i] == e;
      var known := KnownIds(ids, s.exercises);
      assert known[i] in ids;
    }
    r
  }

  /** A day listing "a", a dangling id and "b" resolves to exactly the
      exercises "a" and "b", in that order. */
  lemma DanglingIdDropped(a: Exercise, b: Exercise)
    requires a.id == "a" && b.id == "b"
    ensures Resolve(["a", "missing_id", "b"], [a, b]) == [a, b]
  {
    var exs := [a, b];
    assert Lookup(exs, "a") == Some(a);
    assert !HasId(exs, "missing_id");
    assert Lookup(exs, "b") == Some(b) by {
      assert exs[1].id == "b";
    }
    assert ["a", "missing_id", "b"][1..] == ["missing_id", "b"];
    assert ["missing_id", "b"][1..] == ["b"];
  }

  // ---------------------------------------------------------------------------
  // Profile, calorie entries and legacy workout entries
  // ---------------------------------------------------------------------------

  /** `setUserProfile`: the profile is replaced without any validation. */
  function SetUserProfile(s: Store, profile: UserProfile): (r: Step)
    ensures r.store.profile == Some(profile)
    ensures r.store == s.(profile := Some(profile))
    ensures r.writes == [ProfileWrite(profile)]
  {
    Step(s.(profile := Some(profile)), [ProfileWrite(profile)])
  }

  /** `addCalorieEntry`: appends the entry with id `stamp`. Entries are never
      merged or de-duplicated. */
  function AddCalorieEntry(s: Store, draft: CalorieDraft, stamp: string): (r: Step)
    ensures |r.store.calorieEntries| == |s.calorieEntries| + 1
    ensures r.store.calorieEntries[..|s.calorieEntries|] == s.calorieEntries
    ensures r.store.calorieEntries[|s.calorieEntries|]
      == CalorieEntry(stamp, draft.date, draft.calories, draft.meal, draft.food)
    ensures r.store == s.(calorieEntries := r.store.calorieEntries)
    ensures r.writes == [CalorieEntriesWrite(r.store.calorieEntries)]
  {
    var entries := s.calorieEntries + [CalorieEntry(stamp, draft.date, draft.calories, draft.meal, draft.food)];
    Step(s.(calorieEntries := entries), [CalorieEntriesWrite(entries)])
  }

  /** Two entries added for the same date are both kept, each under its own
      id, when the two stamps differ. */
  lemma TwoEntriesSameDateBothKept(s: Store, d1: CalorieDraft, d2: CalorieDraft, t1: string, t2: string)
    requires d1.date == d2.date && t1 != t2
    ensures var after := AddCalorieEntry(AddCalorieEntry(s, d1, t1).store, d2, t2).store.calorieEntries;
      && |after| == |s.calorieEntries| + 2
      && after[..|s.calorieEntries|] == s.calorieEntries
      && after[|s.calorieEntries|].id == t1 && after[|s.calorieEntries| + 1].id == t2
      && after[|s.calorieEntries|].date == after[|s.calorieEntries| + 1].date
  {
    var mid := AddCalorieEntry(s, d1, t1).store.calorieEntries;
    var after := AddCalorieEntry(AddCalorieEntry(s, d1, t1).store, d2, t2).store.calorieEntries;
    assert after[..|s.calorieEntries|] == mid[..|s.calorieEntries|];
  }

  /** `addWorkoutEntry`: appends the legacy entry with id `stamp`. */
  function AddWorkoutEntry(s: Store, draft: EntryDraft, stamp: string): (r: Step)
    ensures |r.store.workoutEntries| == |s.workoutEntries| + 1
    ensures r.store.workoutEntries[..|s.workoutEntries|] == s.workoutEntries
    ensures r.store.workoutEntries[|s.workoutEntries|] == WorkoutEntry(stamp, draft.exerciseId, draft.date, draft.sets)
    ensures r.store == s.(workoutEntries := r.store.workoutEntries)
    ensures r.writes == [WorkoutEntriesWrite(r.store.workoutEntries)]
  {
    var entries := s.workoutEntries + [WorkoutEntry(stamp, draft.exerciseId, draft.date, draft.sets)];
    Step(s.(workoutEntries := entries), [WorkoutEntriesWrite(entries)])
  }

  /** Deleting an exercise leaves the legacy workout entries alone: an entry
      logged for it stays, now naming an exercise that no longer exists. */
  lemma WorkoutEntrySurvivesDelete(s: Store, draft: EntryDraft, stamp: string)
    ensures var logged := AddWorkoutEntry(s, draft, stamp).store;
      var after := DeleteExercise(logged, draft.exerciseId).store;
      && WorkoutEntry(stamp, draft.exerciseId, draft.date, draft.sets) in after.workoutEntries
      && !HasId(after.exercises, draft.exerciseId)
  {
    var logged := AddWorkoutEntry(s, draft, stamp).store;
    assert logged.workoutEntries[|s.workoutEntries|] == WorkoutEntry(stamp, draft.exerciseId, draft.date, draft.sets);
  }

  // ---------------------------------------------------------------------------
  // Workout sessions
  // ---------------------------------------------------------------------------

  /** `addWorkoutSession`: appends the session with id `stamp`. */
  function AddWorkoutSession(s: Store, draft: SessionDraft, stamp: string): (r: Step)
    ensures |r.store.sessions| == |s.sessions| + 1
    ensures r.store.sessions[..|s.sessions|] == s.sessions
    ensures r.store.sessions[|s.sessions|] == WorkoutSession(stamp, draft.exerciseId, draft.date, draft.sets, draft.notes)
    ensures r.store == s.(sessions := r.store.sessions)
    ensures r.writes == [SessionsWrite(r.store.sessions)]
  {
    var sessions := s.sessions + [WorkoutSession(stamp, draft.exerciseId, draft.date, draft.sets, draft.notes)];
    Step(s.(sessions := sessions), [SessionsWrite(sessions)])
  }

  function SessionIdIs(id: Id): WorkoutSession -> bool {
    (w: WorkoutSession) => w.id == id
  }

  /** `updateWorkoutSession(session)`: every session with the same id is
      replaced by the given one; the rest, and their order, stay. */
  function UpdateWorkoutSession(s: Store, session: WorkoutSession): (r: Step)
    ensures |r.store.sessions| == |s.sessions|
    ensures forall i :: 0 <= i < |s.sessions| ==>
      r.store.sessions[i] == (if s.sessions[i].id == session.id then session else s.sessions[i])
    ensures r.store == s.(sessions := r.store.sessions)
    ensures r.writes == [SessionsWrite(r.store.sessions)]
  {
    var sessions := Replace(s.sessions, SessionIdIs(session.id), session);
    Step(s.(sessions := sessions), [SessionsWrite(sessions)])
  }

  /** The ids of the sessions, position by position, survive an update. */
  lemma UpdateWorkoutSessionKeepsIds(s: Store, session: WorkoutSession)
    ensures var after := UpdateWorkoutSession(s, session).store.sessions;
      forall i :: 0 <= i < |after| ==> after[i].id == s.sessions[i].id
  {
  }

  /** Updating twice with the same session is updating once. */
  lemma UpdateWorkoutSessionIdempotent(s: Store, session: WorkoutSession)
    ensures UpdateWorkoutSession(UpdateWorkoutSession(s, session).store, session) == UpdateWorkoutSession(s, session)
  {
  }

  function TodayFor(exerciseId: Id, today: string): WorkoutSession -> bool {
    (w: WorkoutSession) => w.exerciseId == exerciseId && today <= w.date
  }

  /** The position of the session `getTodaysWorkout` returns: the first one
      for the exercise whose date starts with today's calendar date. */
  function TodaysWorkoutIndex(sessions: seq<WorkoutSession>, exerciseId: Id, now: string): (r: Option<nat>)
    ensures r.Some? ==> (r.value < |sessions|
      && sessions[r.value].exerciseId == exerciseId && DatePart(now) <= sessions[r.value].date)
    ensures r.Some? ==> forall j :: 0 <= j < r.value ==>
      !(sessions[j].exerciseId == exerciseId && DatePart(now) <= sessions[j].date)
    ensures r.None? ==> forall j :: 0 <= j < |sessions| ==>
      !(sessions[j].exerciseId == exerciseId && DatePart(now) <= sessions[j].date)
  {
    FindIndex(sessions, TodayFor(exerciseId, DatePart(now)))
  }

  /** `getTodaysWorkout`: today's session for the exercise, if there is one. */
  function GetTodaysWorkout(sessions: seq<WorkoutSession>, exerciseId: Id, now: string): (r: Option<WorkoutSession>)
    ensures r.Some? <==> exists i :: (0 <= i < |sessions|
      && sessions[i].exerciseId == exerciseId && DatePart(now) <= sessions[i].date)
    ensures r.Some? ==> (r.value in sessions
      && r.value.exerciseId == exerciseId && DatePart(now) <= r.value.date)
    ensures r.Some? ==> exists i :: (0 <= i < |sessions| && sessions[i] == r.value
      && forall j :: 0 <= j < i ==> !(sessions[j].exerciseId == exerciseId && DatePart(now) <= sessions[j].date))
  {
    match TodaysWorkoutIndex(sessions, exerciseId, now)
    case Some(i) => Some(sessions[i])
    case None => None
  }

  function ForExercise(exerciseId: Id): WorkoutSession -> bool {
    (w: WorkoutSession) => w.exerciseId == exerciseId
  }

  /** The sort key: `new Date(session.date).getTime()`, through `timeOf`. */
  function ByTime(timeOf: string -> int): WorkoutSession -> int {
    (w: WorkoutSession) => timeOf(w.date)
  }

  /** `getWorkoutSessionsForExercise` (and its twin `getExerciseHistory`):
      exactly the exercise's sessions, most recent first. */
  function GetWorkoutSessionsForExercise(sessions: seq<WorkoutSession>, exerciseId: Id, timeOf: string -> int)
    : (r: seq<WorkoutSession>)
    ensures SortedDesc(r, ByTime(timeOf))
    ensures multiset(r) == multiset(Filter(sessions, ForExercise(exerciseId)))
    ensures forall w :: w in r <==> w in sessions && w.exerciseId == exerciseId
  {
    var r := SortDesc(Filter(sessions, ForExercise(exerciseId)), ByTime(timeOf));
    assert forall w :: w in r <==> w in multiset(r);
    r
  }

  /** A session just added, dated later than every earlier session of its
      exercise, comes first in that exercise's history. */
  lemma {:induction false} NewestSessionComesFirst(
    s: Store, draft: SessionDraft, stamp: string, timeOf: string -> int)
    requires forall i :: 0 <= i < |s.sessions| && s.sessions[i].exerciseId == draft.exerciseId ==>
      timeOf(s.sessions[i].date) < timeOf(draft.date)
    ensures var after := AddWorkoutSession(s, draft, stamp).store.sessions;
      var listed := GetWorkoutSessionsForExercise(after, draft.exerciseId, timeOf);
      |listed| > 0 && listed[0] == WorkoutSession(stamp, draft.exerciseId, draft.date, draft.sets, draft.notes)
  {
    var added := WorkoutSession(stamp, draft.exerciseId, draft.date, draft.sets, draft.notes);
    var after := AddWorkoutSession(s, draft, stamp).store.sessions;
    var listed := GetWorkoutSessionsForExercise(after, draft.exerciseId, timeOf);
    assert after[|s.sessions|] == added;
    assert added in listed;
    var k :| 0 <= k < |listed| && listed[k] == added;
    assert listed[0] in after && listed[0].exerciseId == draft.exerciseId;
  }

  // ---------------------------------------------------------------------------
  // The legacy per-exercise history
  // ---------------------------------------------------------------------------

  function RowFor(exerciseId: Id): ExerciseData -> bool {
    (row: ExerciseData) => row.exerciseId == exerciseId
  }

  /** `addExerciseSet`: appends {reps, weight, today} to the first history row
      of the exercise, or opens a new row at the end when there is none.
      Every other row stays as it was. */
  function AddExerciseSet(s: Store, exerciseId: Id, reps: int, weight: real, today: int): (r: Step)
    ensures var point := HistoryPoint(reps, weight, today);
      match FindIndex(s.history, RowFor(exerciseId))
      case Some(k) =>
        && |r.store.history| == |s.history|
        && r.store.history[k] == ExerciseData(exerciseId, s.history[k].sets + [point])
        && forall j :: 0 <= j < |s.history| && j != k ==> r.store.history[j] == s.history[j]
      case None =>
        r.store.history == s.history + [ExerciseData(exerciseId, [point])]
    ensures r.store == s.(history := r.store.history)
    ensures r.writes == [HistoryWrite(r.store.history)]
  {
    var point := HistoryPoint(reps, weight, today);
    var history :=
      match FindIndex(s.history, RowFor(exerciseId))
      case Some(k) => s.history[k := s.history[k].(sets := s.history[k].sets + [point])]
      case None => s.history + [ExerciseData(exerciseId, [point])];
    Step(s.(history := history), [HistoryWrite(history)])
  }

  function Between(start: int, end: int): HistoryPoint -> bool {
    (p: HistoryPoint) => start <= p.date <= end
  }

  /** `getExerciseHistoryByDateRange`: the sets of the exercise's first history
      row whose day lies in [start, end], in logged order; none when the
      exercise has no row. */
  function GetExerciseHistoryByDateRange(history: seq<ExerciseData>, exerciseId: Id, start: int, end: int)
    : (r: seq<HistoryPoint>)
    ensures forall p :: p in r ==> start <= p.date <= end
    ensures match FindIndex(history, RowFor(exerciseId))
      case None => r == []
      case Some(k) =>
        && (forall p :: p in r ==> p in history[k].sets)
        && (forall p :: p in history[k].sets && start <= p.date <= end ==> p in r)
  {
    match FindIndex(history, RowFor(exerciseId))
    case None => []
    case Some(k) => Filter(history[k].sets, Between(start, end))
  }

  /** The range query keeps the logged order and every repetition: on a row
      whose sets are split in two, it is the query on each part, joined. */
  lemma RangeKeepsLoggedOrder(
    history: seq<ExerciseData>, exerciseId: Id, start: int, end: int, front: seq<HistoryPoint>, back: seq<HistoryPoint>)
    requires match FindIndex(history, RowFor(exerciseId))
      case Some(k) => history[k].sets == front + back
      case None => false
    ensures GetExerciseHistoryByDateRange(history, exerciseId, start, end)
      == GetExerciseHistoryByDateRange([ExerciseData(exerciseId, front)], exerciseId, start, end)
       + GetExerciseHistoryByDateRange([ExerciseData(exerciseId, back)], exerciseId, start, end)
  {
    FilterConcat(front, back, Between(start, end));
    OnlyRowFound(exerciseId, front);
    OnlyRowFound(exerciseId, back);
  }

  /** A history holding one row of the exercise finds that row. */
  lemma OnlyRowFound(exerciseId: Id, sets: seq<HistoryPoint>)
    ensures FindIndex([ExerciseData(exerciseId, sets)], RowFor(exerciseId)) == Some(0)
  {
  }

  /** A single set is returned exactly when its day lies in the range, so
      together with `RangeKeepsLoggedOrder` two identical sets logged the
      same day are both returned. */
  lemma RangeOfOneSet(exerciseId: Id, p: HistoryPoint, start: int, end: int)
    ensures GetExerciseHistoryByDateRange([ExerciseData(exerciseId, [p])], exerciseId, start, end)
      == (if start <= p.date <= end then [p] else [])
  {
    OnlyRowFound(exerciseId, [p]);
    assert [p] == [] + [p];
    FilterSnoc([], p, Between(start, end));
  }

  /** `getTodaysExerciseSets`: the range query with today as both ends. */
  function GetTodaysExerciseSets(history: seq<ExerciseData>, exerciseId: Id, today: int): (r: seq<HistoryPoint>)
    ensures forall p :: p in r ==> p.date == today
    ensures match FindIndex(history, RowFor(exerciseId))
      case None => r == []
      case Some(k) => forall p :: p in history[k].sets && p.date == today ==> p in r
  {
    GetExerciseHistoryByDateRange(history, exerciseId, today, today)
  }

  /** A set logged today is the last of today's sets read back for that
      exercise, after the ones logged before it. */
  lemma {:induction false} LoggedSetReadsBack(s: Store, exerciseId: Id, reps: int, weight: real, today: int)
    ensures GetTodaysExerciseSets(AddExerciseSet(s, exerciseId, reps, weight, today).store.history, exerciseId, today)
      == GetTodaysExerciseSets(s.history, exerciseId, today) + [HistoryPoint(reps, weight, today)]
  {
    var point := HistoryPoint(reps, weight, today);
    var after := AddExerciseSet(s, exerciseId, reps, weight, today).store.history;
    match FindIndex(s.history, RowFor(exerciseId))
    case Some(k) =>
      assert RowFor(exerciseId)(after[k]);
      assert forall j :: 0 <= j < k ==> after[j] == s.history[j];
      var found := FindIndex(after, RowFor(exerciseId));
      assert found == Some(k);
      FilterSnoc(s.history[k].sets, point, Between(today, today));
    case None =>
      var found := FindIndex(after, RowFor(exerciseId));
      assert RowFor(exerciseId)(after[|s.history|]);
      assert forall j :: 0 <= j < |s.history| ==> after[j] == s.history[j];
      assert found == Some(|s.history|);
      assert after[|s.history|].sets == [point];
  }
}

=== FILE: model.dfy ===
/** The records the app keeps, one datatype per shape the store holds, plus
    the weekday calendar and the "falsy default" rule (`x || d`) that the
    code applies to optional numbers.

    Numbers: set counts, repetitions, ages and calories are `int`; weights
    and heights are `real`. NaN is not modelled. */
module Model {
  import opened Wrappers

  type Id = string

  datatype Gender = Male | Female

  datatype ActivityLevel = Sedentary | Light | Moderate | Active | VeryActive

  datatype UserProfile = UserProfile(
    weight: real,          // kilograms
    height: real,          // centimetres
    age: int,              // years
    gender: Gender,
    activityLevel: ActivityLevel)

  datatype CalorieEntry = CalorieEntry(
    id: Id,
    date: string,          // calendar date "YYYY-MM-DD"
    calories: int,
    meal: string,
    food: string)

  datatype WorkoutSet = WorkoutSet(reps: int, weight: real, completed: bool)

  datatype WorkoutSession = WorkoutSession(
    id: Id,
    exerciseId: Id,
    date: string,          // ISO timestamp; its date part identifies the day
    sets: seq<WorkoutSet>,
    notes: Option<string>)

  datatype Exercise = Exercise(
    id: Id,
    name: string,
    category: string,
    description: Option<string>,
    instructions: Option<string>,
    isCustom: bool,
    defaultSets: Option<int>,
    defaultReps: Option<int>,
    defaultWeight: Option<real>)

  /** The legacy workout log record kept under `workoutEntries`. */
  datatype WorkoutEntry = WorkoutEntry(id: Id, exerciseId: Id, date: string, sets: seq<WorkoutSet>)

  /** One logged set in the legacy per-exercise history. Its date is the
      calendar day the stored date string denotes, as an ordered day number:
      the range query compares parsed dates, not strings. */
  datatype HistoryPoint = HistoryPoint(reps: int, weight: real, date: int)

  /** One row of the legacy history: every logged set of one exercise. */
  datatype ExerciseData = ExerciseData(exerciseId: Id, sets: seq<HistoryPoint>)

  datatype Day = Sunday | Monday | Tuesday | Wednesday | Thursday | Friday | Saturday

  /** The weekly plan: day to ordered exercise ids. A day may be missing (a
      plan loaded from storage need not list all seven); it reads as empty. */
  type WorkoutPlan = map<Day, seq<Id>>

  /** `plan[day] || []`. */
  function DayIds(plan: WorkoutPlan, day: Day): seq<Id> {
    if day in plan then plan[day] else []
  }

  /** `days[i]` for the Sunday-first array indexed by `Date.getDay()`. */
  function DayOfIndex(i: int): (d: Day)
    requires 0 <= i < 7
    ensures IndexOfDay(d) == i
  {
    [Sunday, Monday, Tuesday, Wednesday, Thursday, Friday, Saturday][i]
  }

  /** Position of a day in the Sunday-first week. */
  function IndexOfDay(d: Day): (i: int)
    ensures 0 <= i < 7
  {
    match d
    case Sunday => 0
    case Monday => 1
    case Tuesday => 2
    case Wednesday => 3
    case Thursday => 4
    case Friday => 5
    case Saturday => 6
  }

  /** Every day is reached by exactly one weekday index. */
  lemma DayIndexRoundTrip(d: Day)
    ensures DayOfIndex(IndexOfDay(d)) == d
  {
  }

  /** `v || fallback` for an optional number: both a missing value and 0 are
      falsy, so both give the fallback. */
  function IntOr(v: Option<int>, fallback: int): (r: int)
    ensures v.Some? && v.value != 0 ==> r == v.value
    ensures v.None? || v.value == 0 ==> r == fallback
    ensures r == 0 ==> fallback == 0
  {
    if v.Some? && v.value != 0 then v.value else fallback
  }

  /** `v || fallback` for an optional real-valued number. */
  function RealOr(v: Option<real>, fallback: real): (r: real)
    ensures v.Some? && v.value != 0.0 ==> r == v.value
    ensures v.None? || v.value == 0.0 ==> r == fallback
    ensures r == 0.0 ==> fallback == 0.0
  {
    if v.Some? && v.value != 0.0 then v.value else fallback
  }

  /** Applying a default twice is applying it once, and with a non-zero
      default the result is never the falsy 0: `(v || d) || d == v || d`. */
  lemma DefaultIsSticky(v: Option<int>, d: int)
    ensures IntOr(Some(IntOr(v, d)), d) == IntOr(v, d)
    ensures d != 0 ==> IntOr(v, d) != 0
  {
  }
}

=== FILE: presets.dfy ===
/** The compiled-in data: the preset exercise library and the default
    weekly plan, exactly as the store starts with them. */
module Defaults {
  import opened Wrappers
  import opened Model

  /** A preset library entry: never custom, with all three defaults given. */
  function Preset(id: Id, name: string, category: string, sets: int, reps: int, weight: real): Exercise {
    Exercise(id, name, category, None, None, false, Some(sets), Some(reps), Some(weight))
  }

  /** The preset library (`defaultExercises`), in its declared order. */
  const Presets: seq<Exercise> :=
    [
      Preset("chest_1", "Bench Press", "chest", 4, 10, 135.0),
      Preset("chest_2", "Incline Dumbbell Press", "chest", 3, 12, 50.0),
      Preset("chest_3", "Chest Cable Flys", "chest", 3, 15, 30.0),
      Preset("chest_4", "Dips", "chest", 3, 10, 0.0),
      Preset("back_1", "Pull-Ups", "back", 4, 10, 0.0),
      Preset("back_2", "Lat Pulldown", "back", 4, 10, 100.0),
      Preset("back_3", "Barbell Bent Over Row", "back", 4, 10, 135.0),
      Preset("back_4", "Seated Cable Row", "back", 3, 12, 90.0),
      Preset("shoulders_1", "Seated Shoulder Press", "shoulders", 4, 10, 95.0),
      Preset("shoulders_2", "Lateral Raise", "shoulders", 3, 15, 15.0),
      Preset("shoulders_3", "Front Raise", "shoulders", 3, 12, 15.0),
      Preset("biceps_1", "Dumbbell Bicep Curls", "biceps", 3, 12, 25.0),
      Preset("biceps_2", "Barbell EZ Curl", "biceps", 3, 10, 30.0),
      Preset("biceps_3", "Concentration Curl", "biceps", 3, 12, 25.0),
      Preset("triceps_1", "Overhead Tricep Extension", "triceps", 3, 12, 35.0),
      Preset("triceps_2", "Rope Tricep Pushdown", "triceps", 3, 15, 50.0),
      Preset("triceps_3", "Skull Crushers", "triceps", 3, 10, 40.0),
      Preset("forearms_1", "Hammer Curl", "forearms", 3, 15, 25.0),
      Preset("forearms_2", "Wrist Curls", "forearms", 3, 20, 15.0),
      Preset("forearms_3", "Reverse Curl", "forearms", 3, 15, 20.0),
      Preset("legs_1", "Squats", "legs", 4, 10, 155.0),
      Preset("legs_2", "Leg Press", "legs", 3, 12, 200.0),
      Preset("legs_3", "Dumbbell Step-Ups", "legs", 3, 12, 25.0),
      Preset("legs_4", "Romanian Deadlifts", "legs", 3, 12, 135.0),
      Preset("legs_5", "Seated Calf Raise", "legs", 3, 20, 45.0),
      Preset("abs_1", "Cable Crunch", "abs", 3, 20, 30.0),
      Preset("abs_2", "Weighted Leg Raises", "abs", 3, 15, 10.0),
      Preset("abs_3", "Decline Bench Sit-Ups", "abs", 3, 15, 0.0),
      Preset("abs_4", "Leg Raises + Flutter Kicks", "abs", 3, 20, 0.0),
      Preset("hiit_1", "Jump Rope", "cardio", 3, 120, 0.0),
      Preset("hiit_2", "Burpees", "cardio", 3, 15, 0.0),
      Preset("hiit_3", "High Knees", "cardio", 3, 30, 0.0),
      Preset("hiit_4", "Mountain Climbers", "cardio", 3, 30, 0.0)
    ]

  /** The plan the store starts with before anything is loaded. */
  const DefaultPlan: WorkoutPlan :=
    map[
      Monday := ["chest_1", "chest_2", "chest_3", "chest_4", "triceps_1", "triceps_2", "abs_1", "abs_2"],
      Tuesday := ["back_1", "back_3", "back_4", "biceps_1", "biceps_2", "forearms_1", "forearms_2"],
      Wednesday := [],
      Thursday := ["legs_1", "legs_2", "legs_3", "legs_4", "legs_5", "abs_3", "abs_2"],
      Friday := ["shoulders_1", "shoulders_2", "shoulders_3", "triceps_3", "biceps_3", "forearms_3", "abs_4", "abs_1"],
      Saturday := ["hiit_1", "hiit_2", "hiit_3", "hiit_4", "abs_1"],
      Sunday := []
    ]

  /** No preset is custom, so the persisted custom list never holds one. */
  lemma PresetsAreNotCustom()
    ensures forall i :: 0 <= i < |Presets| ==> !Presets[i].isCustom
  {
  }
}

=== FILE: seqs.dfy ===
/** Generic sequence operations mirroring the JavaScript array methods the
    store is written with: `filter`, `findIndex`/`find`, and a stable sort by
    a numeric key. */
module Seqs {
  import opened Wrappers

  /** `s.filter(p)`: the elements of `s` that satisfy `p`, in their original order. */
  function Filter<T>(s: seq<T>, p: T -> bool): (r: seq<T>)
    ensures |r| <= |s|
    ensures forall i :: 0 <= i < |r| ==> p(r[i])
    ensures forall i :: 0 <= i < |s| && p(s[i]) ==> s[i] in r
    ensures forall x :: x in r ==> x in s
    decreases |s|
  {
    if s == [] then []
    else if p(s[0]) then [s[0]] + Filter(s[1..], p)
    else Filter(s[1..], p)
  }

  /** Filtering distributes over concatenation: the survivors of `a + b` are the
      survivors of `a` followed by the survivors of `b`, so order is kept. */
  lemma {:induction false} FilterConcat<T>(a: seq<T>, b: seq<T>, p: T -> bool)
    ensures Filter(a + b, p) == Filter(a, p) + Filter(b, p)
    decreases |a|
  {
    if a == [] {
      assert a + b == b;
    } else {
      assert (a + b)[0] == a[0];
      assert (a + b)[1..] == a[1..] + b;
      FilterConcat(a[1..], b, p);
    }
  }

  /** A filter whose predicate holds everywhere changes nothing. */
  lemma {:induction false} FilterAll<T>(s: seq<T>, p: T -> bool)
    requires forall i :: 0 <= i < |s| ==> p(s[i])
    ensures Filter(s, p) == s
    decreases |s|
  {
    if s != [] {
      FilterAll(s[1..], p);
    }
  }

  /** A filter whose predicate holds nowhere keeps nothing. */
  lemma {:induction false} FilterNone<T>(s: seq<T>, p: T -> bool)
    requires forall i :: 0 <= i < |s| ==> !p(s[i])
    ensures Filter(s, p) == []
    decreases |s|
  {
    if s != [] {
      FilterNone(s[1..], p);
    }
  }

  /** Appending one element that fails the predicate does not change the filter;
      appending one that passes appends it to the filter. */
  lemma FilterSnoc<T>(s: seq<T>, x: T, p: T -> bool)
    ensures Filter(s + [x], p) == Filter(s, p) + (if p(x) then [x] else [])
  {
    FilterConcat(s, [x], p);
  }

  /** `s.findIndex(p)`: the first index whose element satisfies `p`, if any. */
  function FindIndex<T>(s: seq<T>, p: T -> bool): (r: Option<nat>)
    ensures r.Some? ==> r.value < |s| && p(s[r.value])
    ensures r.Some? ==> forall j :: 0 <= j < r.value ==> !p(s[j])
    ensures r.None? ==> forall j :: 0 <= j < |s| ==> !p(s[j])
    decreases |s|
  {
    if s == [] then None
    else if p(s[0]) then Some(0)
    else
      match FindIndex(s[1..], p)
      case Some(i) => Some(i + 1)
      case None => None
  }

  /** Non-increasing by `key`: most recent first when `key` is a timestamp. */
  predicate SortedDesc<T>(s: seq<T>, key: T -> int) {
    forall i, j :: 0 <= i < j < |s| ==> key(s[i]) >= key(s[j])
  }

  /** `s.filter((_, i) => i !== index)`: the element at `index` is dropped
      and the rest keep their order; an index out of range drops nothing. */
  function DropAt<T>(s: seq<T>, index: int): (r: seq<T>)
    ensures 0 <= index < |s| ==> r == s[..index] + s[index + 1..]
    ensures !(0 <= index < |s|) ==> r == s
    decreases |s|
  {
    if s == [] then []
    else
      var rest := DropAt(s[1..], index - 1);
      assert s == [s[0]] + s[1..];
      assert 0 < index < |s| ==> s[..index] == [s[0]] + s[1..][..index - 1] && s[index + 1..] == s[1..][index..];
      (if index == 0 then [] else [s[0]]) + rest
  }

  /** In a list sorted largest first, nothing after the head has a larger key. */
  lemma HeadBoundsTail<T>(s: seq<T>, key: T -> int, y: T)
    requires SortedDesc(s, key) && s != [] && y in s[1..]
    ensures key(y) <= key(s[0])
  {
    var m :| 0 <= m < |s[1..]| && s[1..][m] == y;
    assert s[m + 1] == y;
  }

  /** Inserts `x` before the first element with a strictly smaller key, so that
      `x` stays ahead of the equal-keyed elements that came after it. */
  function InsertDesc<T>(x: T, s: seq<T>, key: T -> int): (r: seq<T>)
    requires SortedDesc(s, key)
    ensures SortedDesc(r, key)
    ensures multiset(r) == multiset(s) + multiset{x}
    decreases |s|
  {
    if s == [] || key(x) >= key(s[0]) then [x] + s
    else
      var rest := InsertDesc(x, s[1..], key);
      assert forall k :: 0 <= k < |rest| ==> key(rest[k]) <= key(s[0]) by {
        forall k | 0 <= k < |rest|
          ensures key(rest[k]) <= key(s[0])
        {
          var y := rest[k];
          assert y in multiset(rest);
          if y != x {
            assert y in multiset(s[1..]);
            HeadBoundsTail(s, key, y);
          }
        }
      }
      assert s == [s[0]] + s[1..];
      [s[0]] + rest
  }

  /** `s.sort((a, b) => key(b) - key(a))`: a stable sort, largest key first. */
  function SortDesc<T>(s: seq<T>, key: T -> int): (r: seq<T>)
    ensures SortedDesc(r, key)
    ensures multiset(r) == multiset(s)
    ensures |r| == |s|
    decreases |s|
  {
    if s == [] then []
    else
      assert s == [s[0]] + s[1..];
      InsertDesc(s[0], SortDesc(s[1..], key), key)
  }

  /** `s.map(y => matches(y) ? x : y)`: every element `matches` accepts is
      replaced by `x`; every other element, and the length, stay as they were. */
  function Replace<T>(s: seq<T>, matches: T -> bool, x: T): (r: seq<T>)
    ensures |r| == |s|
    ensures forall i :: 0 <= i < |s| && matches(s[i]) ==> r[i] == x
    ensures forall i :: 0 <= i < |s| && !matches(s[i]) ==> r[i] == s[i]
    decreases |s|
  {
    if s == [] then []
    else [if matches(s[0]) then x else s[0]] + Replace(s[1..], matches, x)
  }
}

=== FILE: text.dfy ===
/** String helpers standing in for `String.prototype.trim`, `startsWith` and
    the `toISOString().split('T')[0]` idiom that turns a timestamp into a
    calendar date. */
module Text {

  /** The white-space characters `trim` removes: the ECMAScript WhiteSpace
      set (tab, vertical tab, form feed, space, no-break space, the byte-order
      mark and every Unicode space separator) and the LineTerminator set
      (line feed, carriage return, line and paragraph separators). */
  const Spaces: set<char> := {
    '\t', '\U{0B}', '\U{0C}', ' ', '\U{A0}', '\U{FEFF}',
    '\n', '\r', '\U{2028}', '\U{2029}',
    '\U{1680}', '\U{2000}', '\U{2001}', '\U{2002}', '\U{2003}', '\U{2004}', '\U{2005}',
    '\U{2006}', '\U{2007}', '\U{2008}', '\U{2009}', '\U{200A}', '\U{202F}', '\U{205F}',
    '\U{3000}'
  }

  predicate IsSpace(c: char) {
    c in Spaces
  }

  predicate AllSpace(s: string) {
    forall k :: 0 <= k < |s| ==> IsSpace(s[k])
  }

  /** Drops the leading white space. */
  function TrimStart(s: string): (r: string)
    ensures |r| <= |s| && r == s[|s| - |r|..]
    ensures AllSpace(s[..|s| - |r|])
    ensures r == [] || !IsSpace(r[0])
    decreases |s|
  {
    if s != [] && IsSpace(s[0]) then
      var r := TrimStart(s[1..]);
      assert s[..|s| - |r|] == [s[0]] + s[1..][..|s[1..]| - |r|];
      r
    else s
  }

  /** Drops the trailing white space. */
  function TrimEnd(s: string): (r: string)
    ensures |r| <= |s| && r == s[..|r|]
    ensures AllSpace(s[|r|..])
    ensures r == [] || !IsSpace(r[|r| - 1])
    decreases |s|
  {
    if s != [] && IsSpace(s[|s| - 1]) then
      var r := TrimEnd(s[..|s| - 1]);
      assert s[|r|..] == s[..|s| - 1][|r|..] + [s[|s| - 1]];
      r
    else s
  }

  /** The number of white-space characters `trim` removes from the front. */
  function LeadingSpaces(s: string): (n: nat)
    ensures n <= |s| && AllSpace(s[..n])
    ensures n == |s| || !IsSpace(s[n])
  {
    |s| - |TrimStart(s)|
  }

  /** `s.trim()`: the piece of `s` left once the white space at both ends is
      removed; nothing else is dropped. */
  function Trim(s: string): (r: string)
    ensures LeadingSpaces(s) + |r| <= |s|
    ensures r == s[LeadingSpaces(s)..LeadingSpaces(s) + |r|]
    ensures AllSpace(s[LeadingSpaces(s) + |r|..])
    ensures r == [] || (!IsSpace(r[0]) && !IsSpace(r[|r| - 1]))
  {
    var t := TrimStart(s);
    var r := TrimEnd(t);
    assert s[LeadingSpaces(s) + |r|..] == t[|r|..];
    r
  }

  /** The trimmed text is empty exactly when the text is all white space:
      the `!text.trim()` test rejects blank input and nothing else. */
  lemma TrimEmptyIffBlank(s: string)
    ensures Trim(s) == [] <==> AllSpace(s)
  {
    var n := LeadingSpaces(s);
    if Trim(s) == [] {
      assert n == |s|;
      assert s[..n] == s;
    } else {
      var r := Trim(s);
      assert s[n] == r[0];
    }
  }

  /** One trailing white-space character survives `TrimStart` only behind
      text that is not blank. */
  lemma {:induction false} TrimStartSnoc(x: string, b: char)
    requires IsSpace(b)
    ensures TrimStart(x + [b]) == if TrimStart(x) == [] then [] else TrimStart(x) + [b]
    decreases |x|
  {
    if x == [] {
      assert (x + [b])[1..] == [];
    } else if IsSpace(x[0]) {
      assert (x + [b])[1..] == x[1..] + [b];
      TrimStartSnoc(x[1..], b);
    }
  }

  /** White space at both ends of a text is what `trim` removes: wrapping a
      text in one white-space character on each side does not change its
      trimmed form. */
  lemma TrimDropsWrappingSpace(a: char, x: string, b: char)
    requires IsSpace(a) && IsSpace(b)
    ensures Trim([a] + x + [b]) == Trim(x)
  {
    var s := [a] + x + [b];
    assert s[1..] == x + [b];
    assert TrimStart(s) == TrimStart(x + [b]);
    TrimStartSnoc(x, b);
    var t := TrimStart(x);
    if t == [] {
      assert TrimStart(s) == [];
    } else {
      assert TrimStart(s) == t + [b];
      assert (t + [b])[..|t + [b]| - 1] == t;
      assert TrimEnd(t + [b]) == TrimEnd(t);
    }
  }

  /** A name made of ideographic spaces trims to nothing, and the other
      Unicode space separators are trimmed like a plain space. */
  lemma IdeographicSpaceIsBlank()
    ensures Trim("\U{3000}\U{3000}") == []
    ensures Trim("\U{2003}x\U{202F}") == "x"
  {
    IdeographicPairIsBlank();
    SeparatorsAroundLetterTrimmed();
  }

  lemma IdeographicPairIsBlank()
    ensures Trim("\U{3000}\U{3000}") == []
  {
    TrimDropsWrappingSpace('\U{3000}', [], '\U{3000}');
    assert ['\U{3000}'] + [] + ['\U{3000}'] == "\U{3000}\U{3000}";
    assert TrimStart([]) == [] && TrimEnd([]) == [];
  }

  lemma SeparatorsAroundLetterTrimmed()
    ensures Trim("\U{2003}x\U{202F}") == "x"
  {
    var s := "\U{2003}x\U{202F}";
    var t := "x\U{202F}";
    assert 'x' !in Spaces;
    assert s[1..] == t && t[1..] == "\U{202F}";
    assert TrimStart(t) == t;
    assert TrimStart(s) == t;
    assert t[..|t| - 1] == "x";
    assert TrimEnd("x") == "x";
    assert TrimEnd(t) == "x";
  }

  /** `s.split('T')[0]`: the text before the first 'T', or all of `s` when it
      has none. Applied to an ISO timestamp it yields the calendar date. */
  function DatePart(s: string): (r: string)
    ensures r <= s
    ensures 'T' !in r
    ensures |r| < |s| ==> s[|r|] == 'T'
    decreases |s|
  {
    if s == [] || s[0] == 'T' then []
    else [s[0]] + DatePart(s[1..])
  }
}

=== FILE: workout_logger.dfy ===
/** The set-list editor shown for one exercise: it opens on today's session
    or on default sets, edits, adds and removes sets, and saves the result
    either over today's session or as a new one. */
module WorkoutLogger {
  import opened Wrappers
  import opened Seqs
  import opened Text
  import opened Model
  import opened FitnessStore

  /** The editor's state: the sets, the notes text, and today's session when
      the editor opened on one. */
  datatype Editor = Editor(sets: seq<WorkoutSet>, notes: string, existing: Option<WorkoutSession>)

  /** `n` copies of `x`. */
  function Repeat<T>(x: T, n: nat): (r: seq<T>)
    ensures |r| == n
    ensures forall i :: 0 <= i < n ==> r[i] == x
  {
    if n == 0 then [] else [x] + Repeat(x, n - 1)
  }

  /** The fresh set the editor starts from when there is no session today. */
  function DefaultSet(exercise: Exercise): WorkoutSet {
    WorkoutSet(IntOr(exercise.defaultReps, 10), RealOr(exercise.defaultWeight, 0.0), false)
  }

  /** How many default sets the editor opens with: `defaultSets || 3`, and none
      for a negative count, as `Array.from` clamps a negative length to 0. */
  function DefaultSetCount(exercise: Exercise): nat {
    var n := IntOr(exercise.defaultSets, 3);
    if n < 0 then 0 else n
  }

  /** The effect run when the editor opens: today's session's sets and notes
      (`notes || ''`) when there is one, else the default sets and no notes. */
  function OpenEditor(s: Store, exercise: Exercise, now: string): (r: Editor)
    ensures r.existing == GetTodaysWorkout(s.sessions, exercise.id, now)
    ensures r.existing.Some? ==> r.sets == r.existing.value.sets && r.notes == r.existing.value.notes.GetOr("")
    ensures r.existing.None? ==> r.notes == "" && |r.sets| == DefaultSetCount(exercise)
    ensures r.existing.None? ==> forall i :: 0 <= i < |r.sets| ==>
      r.sets[i] == WorkoutSet(IntOr(exercise.defaultReps, 10), RealOr(exercise.defaultWeight, 0.0), false)
  {
    match GetTodaysWorkout(s.sessions, exercise.id, now)
    case Some(session) => Editor(session.sets, session.notes.GetOr(""), Some(session))
    case None => Editor(Repeat(DefaultSet(exercise), DefaultSetCount(exercise)), "", None)
  }

  /** With no session today and no defaults, the editor opens on three sets of
      10 repetitions at weight 0, none completed; an explicit 0 sets also means 3. */
  lemma OpenWithoutDefaults(s: Store, exercise: Exercise, now: string)
    requires GetTodaysWorkout(s.sessions, exercise.id, now).None?
    requires exercise.defaultSets in {None, Some(0)} && exercise.defaultReps.None? && exercise.defaultWeight.None?
    ensures OpenEditor(s, exercise, now).sets == [WorkoutSet(10, 0.0, false), WorkoutSet(10, 0.0, false), WorkoutSet(10, 0.0, false)]
  {
  }

  /** One edit of one field of a set: the value the input produced. */
  datatype SetEdit = EditReps(reps: int) | EditWeight(weight: real) | ToggleCompleted(completed: bool)

  /** `updateSet(index, field, value)`: the field of set `index` takes the new
      value; the other two fields, the other sets and the length stay. An
      index outside the list changes nothing. */
  function UpdateSet(sets: seq<WorkoutSet>, index: int, edit: SetEdit): (r: seq<WorkoutSet>)
    ensures |r| == |sets|
    ensures forall j :: 0 <= j < |sets| && j != index ==> r[j] == sets[j]
    ensures 0 <= index < |sets| ==>
      && r[index].reps == (if edit.EditReps? then edit.reps else sets[index].reps)
      && r[index].weight == (if edit.EditWeight? then edit.weight else sets[index].weight)
      && r[index].completed == (if edit.ToggleCompleted? then edit.completed else sets[index].completed)
  {
    if 0 <= index < |sets| then
      var current := sets[index];
      var changed :=
        match edit
        case EditReps(v) => current.(reps := v)
        case EditWeight(v) => current.(weight := v)
        case ToggleCompleted(v) => current.(completed := v);
      sets[index := changed]
    else sets
  }

  /** `addSet`: one uncompleted set is appended, copying the last set's reps
      and weight; a missing last set, or a 0 in it, falls back to the
      exercise's default and then to 10 reps and weight 0. */
  function AddSet(sets: seq<WorkoutSet>, exercise: Exercise): (r: seq<WorkoutSet>)
    ensures |r| == |sets| + 1 && r[..|sets|] == sets
    ensures !r[|sets|].completed
    ensures sets != [] && sets[|sets| - 1].reps != 0 ==> r[|sets|].reps == sets[|sets| - 1].reps
    ensures sets != [] && sets[|sets| - 1].weight != 0.0 ==> r[|sets|].weight == sets[|sets| - 1].weight
    ensures sets == [] || sets[|sets| - 1].reps == 0 ==> r[|sets|].reps == IntOr(exercise.defaultReps, 10)
    ensures sets == [] || sets[|sets| - 1].weight == 0.0 ==> r[|sets|].weight == RealOr(exercise.defaultWeight, 0.0)
  {
    var reps := if sets != [] && sets[|sets| - 1].reps != 0 then sets[|sets| - 1].reps else IntOr(exercise.defaultReps, 10);
    var weight := if sets != [] && sets[|sets| - 1].weight != 0.0 then sets[|sets| - 1].weight else RealOr(exercise.defaultWeight, 0.0);
    sets + [WorkoutSet(reps, weight, false)]
  }

  /** `removeSet(index)`: with more than one set, the set at `index` is
      dropped and the rest keep their order; the last remaining set is never
      removed. */
  function RemoveSet(sets: seq<WorkoutSet>, index: int): (r: seq<WorkoutSet>)
    ensures |sets| >= 1 ==> |r| >= 1
    ensures |sets| > 1 && 0 <= index < |sets| ==> r == sets[..index] + sets[index + 1..]
    ensures |sets| <= 1 || !(0 <= index < |sets|) ==> r == sets
  {
    if |sets| <= 1 then sets else DropAt(sets, index)
  }

  /** The session data `saveWorkout` sends: the exercise, the current time,
      the edited sets and the notes. */
  function SessionData(editor: Editor, exercise: Exercise, now: string): SessionDraft {
    SessionDraft(exercise.id, now, editor.sets, Some(editor.notes))
  }

  /** `saveWorkout`, as the store's one-argument `updateWorkoutSession` would
      have it: today's session, when the editor opened on one, is replaced by
      the edited data under the same id; otherwise a new session is added.
      Never both. */
  function SaveWorkout(s: Store, editor: Editor, exercise: Exercise, now: string, stamp: string): (r: Step)
    ensures editor.existing.Some? ==>
      var id := editor.existing.value.id;
      && |r.store.sessions| == |s.sessions|
      && forall i :: 0 <= i < |s.sessions| ==>
        r.store.sessions[i] == (if s.sessions[i].id == id
          then WorkoutSession(id, exercise.id, now, editor.sets, Some(editor.notes))
          else s.sessions[i])
    ensures editor.existing.None? ==>
      && |r.store.sessions| == |s.sessions| + 1
      && r.store.sessions[..|s.sessions|] == s.sessions
      && r.store.sessions[|s.sessions|] == WorkoutSession(stamp, exercise.id, now, editor.sets, Some(editor.notes))
    ensures r.store == s.(sessions := r.store.sessions)
    ensures r.writes == [SessionsWrite(r.store.sessions)]
  {
    var data := SessionData(editor, exercise, now);
    match editor.existing
    case Some(session) =>
      UpdateWorkoutSession(s, WorkoutSession(session.id, data.exerciseId, data.date, data.sets, data.notes))
    case None => AddWorkoutSession(s, data, stamp)
  }

  /** Opening the editor and saving without edits: on today's session the
      sets stay as they were and the notes become `notes || ''`; without one,
      exactly one session holding the default sets is added. */
  lemma {:induction false} OpenThenSaveKeepsSets(s: Store, exercise: Exercise, now: string, stamp: string)
    ensures var editor := OpenEditor(s, exercise, now);
      var after := SaveWorkout(s, editor, exercise, now, stamp).store.sessions;
      match TodaysWorkoutIndex(s.sessions, exercise.id, now)
      case Some(k) =>
        && |after| == |s.sessions|
        && after[k].id == s.sessions[k].id
        && after[k].sets == s.sessions[k].sets
        && after[k].notes == Some(s.sessions[k].notes.GetOr(""))
      case None =>
        && |after| == |s.sessions| + 1
        && after[|s.sessions|].sets == Repeat(DefaultSet(exercise), DefaultSetCount(exercise))
  {
    var editor := OpenEditor(s, exercise, now);
    match TodaysWorkoutIndex(s.sessions, exercise.id, now)
    case Some(k) =>
      assert editor.existing == Some(s.sessions[k]);
    case None =>
      assert editor.existing.None?;
  }

  /** Adding a set and then removing the set just added restores the list;
      on an empty list the added set is kept, as the last set is never
      removed. */
  lemma AddThenRemoveSet(sets: seq<WorkoutSet>, exercise: Exercise)
    ensures sets != [] ==> RemoveSet(AddSet(sets, exercise), |sets|) == sets
    ensures sets == [] ==> RemoveSet(AddSet(sets, exercise), |sets|) == AddSet(sets, exercise)
  {
    var grown := AddSet(sets, exercise);
    assert grown[..|sets|] == sets;
  }

  /** `saveWorkout` as written: it calls `updateWorkoutSession(existingSession.id,
      sessionData)`, but the store's function takes a single session. That
      parameter receives the id string; a string has no `id` property, so the
      key compared against every stored id is `undefined`, which no stored id
      equals. The session list is rewritten unchanged and the edits are lost.
      Without a session today the new one is added as intended. */
  function SaveWorkoutAsWritten(s: Store, editor: Editor, exercise: Exercise, now: string, stamp: string): (r: Step)
    ensures editor.existing.Some? ==> r.store == s && r.writes == [SessionsWrite(s.sessions)]
    ensures editor.existing.None? ==> r == SaveWorkout(s, editor, exercise, now, stamp)
  {
    match editor.existing
    case Some(_) => Step(s, [SessionsWrite(s.sessions)])
    case None => AddWorkoutSession(s, SessionData(editor, exercise, now), stamp)
  }

  /** Opening the editor on today's session, changing its sets and saving:
      as written, the store still holds the old sets; with the one-argument
      call it holds the new ones. */
  lemma {:induction false} SavedEditsAreLost(s: Store, exercise: Exercise, now: string, stamp: string, sets: seq<WorkoutSet>)
    requires OpenEditor(s, exercise, now).existing.Some?
    requires sets != OpenEditor(s, exercise, now).sets
    ensures var editor := OpenEditor(s, exercise, now).(sets := sets);
      var k := TodaysWorkoutIndex(s.sessions, exercise.id, now).value;
      && SaveWorkoutAsWritten(s, editor, exercise, now, stamp).store.sessions[k].sets != sets
      && SaveWorkout(s, editor, exercise, now, stamp).store.sessions[k].sets == sets
  {
    var editor := OpenEditor(s, exercise, now).(sets := sets);
    var k := TodaysWorkoutIndex(s.sessions, exercise.id, now).value;
    assert s.sessions[k] == editor.existing.value;
  }
}

=== FILE: workout_tracker.dfy ===
/** Today's-workout screen: logging a completed set into today's session,
    the add and edit exercise forms, quick-add, and the session count. */
module WorkoutTracker {
  import opened Wrappers
  import opened Seqs
  import opened Text
  import opened Model
  import opened Defaults
  import opened FitnessStore

  /** `completeSet`: with a session for the exercise today, the completed set
      is appended to that session under the same id, exercise, date and
      notes; without one, a session holding just that set and empty notes is
      added, dated `now`. */
  function CompleteSet(s: Store, exerciseId: Id, reps: int, weight: real, now: string, stamp: string): (r: Step)
    ensures var done := WorkoutSet(reps, weight, true);
      match TodaysWorkoutIndex(s.sessions, exerciseId, now)
      case Some(k) =>
        && |r.store.sessions| == |s.sessions|
        && r.store.sessions[k] == s.sessions[k].(sets := s.sessions[k].sets + [done])
        && (forall j :: 0 <= j < |s.sessions| && s.sessions[j].id == s.sessions[k].id ==>
             r.store.sessions[j] == r.store.sessions[k])
        && forall j :: 0 <= j < |s.sessions| && s.sessions[j].id != s.sessions[k].id ==>
             r.store.sessions[j] == s.sessions[j]
      case None =>
        && |r.store.sessions| == |s.sessions| + 1
        && r.store.sessions[..|s.sessions|] == s.sessions
        && r.store.sessions[|s.sessions|..] == [WorkoutSession(stamp, exerciseId, now, [done], Some(""))]
    ensures r.store == s.(sessions := r.store.sessions)
    ensures r.writes == [SessionsWrite(r.store.sessions)]
  {
    var done := WorkoutSet(reps, weight, true);
    match GetTodaysWorkout(s.sessions, exerciseId, now)
    case Some(session) => UpdateWorkoutSession(s, session.(sets := session.sets + [done]))
    case None => AddWorkoutSession(s, SessionDraft(exerciseId, now, [done], Some("")), stamp)
  }

  /** After a set is completed there is a session for the exercise today, so
      the next completed set goes into the same session instead of a new one. */
  lemma {:induction false} CompletedSetOpensTodaysSession(
    s: Store, exerciseId: Id, reps: int, weight: real, now: string, stamp: string)
    ensures GetTodaysWorkout(CompleteSet(s, exerciseId, reps, weight, now, stamp).store.sessions, exerciseId, now).Some?
  {
    var after := CompleteSet(s, exerciseId, reps, weight, now, stamp).store.sessions;
    match TodaysWorkoutIndex(s.sessions, exerciseId, now)
    case Some(k) =>
      assert after[k].exerciseId == exerciseId && DatePart(now) <= after[k].date;
    case None =>
      assert after[|s.sessions|] == after[|s.sessions|..][0];
      assert DatePart(now) <= after[|s.sessions|].date;
  }

  /** The quick-add button: completes one set at the exercise's default reps
      and weight, falling back to 10 and 0 when a default is missing or 0.
      The new set is the last set of today's session for the exercise, which
      is the existing one when there is one and otherwise a new last session. */
  function QuickAddSet(s: Store, exercise: Exercise, now: string, stamp: string): (r: Step)
    ensures var k := match TodaysWorkoutIndex(s.sessions, exercise.id, now)
                     case Some(k) => k
                     case None => |s.sessions|;
      && k < |r.store.sessions| && r.store.sessions[k].sets != []
      && var added := r.store.sessions[k].sets[|r.store.sessions[k].sets| - 1];
      && added.completed
      && (exercise.defaultReps.None? || exercise.defaultReps == Some(0) ==> added.reps == 10)
      && (exercise.defaultReps.Some? && exercise.defaultReps.value != 0 ==> added.reps == exercise.defaultReps.value)
      && (exercise.defaultWeight.None? || exercise.defaultWeight == Some(0.0) ==> added.weight == 0.0)
      && (exercise.defaultWeight.Some? && exercise.defaultWeight.value != 0.0 ==> added.weight == exercise.defaultWeight.value)
  {
    var r := CompleteSet(s, exercise.id, IntOr(exercise.defaultReps, 10), RealOr(exercise.defaultWeight, 0.0), now, stamp);
    assert TodaysWorkoutIndex(s.sessions, exercise.id, now).None? ==>
      r.store.sessions[|s.sessions|] == r.store.sessions[|s.sessions|..][0];
    r
  }

  /** A quick-added set grows today's session by exactly that one set at the
      end and keeps every other session; without a session today it adds
      exactly one session. */
  lemma QuickAddGrowsTodaysSession(s: Store, exercise: Exercise, now: string, stamp: string)
    ensures var after := QuickAddSet(s, exercise, now, stamp).store.sessions;
      match TodaysWorkoutIndex(s.sessions, exercise.id, now)
      case Some(k) =>
        && |after| == |s.sessions|
        && |after[k].sets| == |s.sessions[k].sets| + 1
        && after[k].sets[..|s.sessions[k].sets|] == s.sessions[k].sets
        && (forall j :: 0 <= j < |s.sessions| && s.sessions[j].id == s.sessions[k].id ==> after[j] == after[k])
        && forall j :: 0 <= j < |s.sessions| && s.sessions[j].id != s.sessions[k].id ==> after[j] == s.sessions[j]
      case None =>
        && |after| == |s.sessions| + 1
        && after[..|s.sessions|] == s.sessions
        && |after[|s.sessions|].sets| == 1
  {
    var after := QuickAddSet(s, exercise, now, stamp).store.sessions;
    if TodaysWorkoutIndex(s.sessions, exercise.id, now).None? {
      assert after[|s.sessions|] == after[|s.sessions|..][0];
    }
  }

  /** The add/edit form. Each numeric field is `None` while left empty and
      otherwise holds the number the text parses to. */
  datatype ExerciseForm = ExerciseForm(
    name: string, category: string, sets: Option<int>, reps: Option<int>, weight: Option<real>)

  /** `field ? parse(field) : fallback`: only an empty field takes the
      fallback; an entered 0 is kept (the text "0" is not falsy). */
  function FieldOr<T>(field: Option<T>, fallback: T): (r: T)
    ensures field.None? ==> r == fallback
    ensures field.Some? ==> r == field.value
  {
    field.GetOr(fallback)
  }

  /** The two zero rules side by side: an entered 0 in the exercise form is
      kept, while the store's `|| 3` and the quick-add's `|| 10` replace it. */
  lemma ZeroRulesDiffer()
    ensures FieldOr(Some(0), 3) == 0 && IntOr(Some(0), 3) == 3
    ensures forall n: int :: FieldOr(Some(n), 3) == n
    ensures forall v: Option<int> :: FieldOr(v, 3) == 0 ==> IntOr(v, 3) == 3
  {
  }

  const MissingNameOrCategory := "Please fill in exercise name and category"

  /** Both forms refuse a name or category that is empty once trimmed. */
  predicate FormComplete(form: ExerciseForm) {
    Trim(form.name) != [] && Trim(form.category) != []
  }

  /** `handleAddExercise`: refused, with nothing changed, when the trimmed name
      or category is empty; otherwise a custom exercise `custom_<stamp>` with
      the trimmed texts and the form's defaults (3 sets, 10 reps, weight 0 for
      empty fields) is added and then put on today's plan. */
  function HandleAddExercise(s: Store, form: ExerciseForm, stamp: string, weekday: int): (r: Submitted)
    requires 0 <= weekday < 7
    ensures r.Rejected? <==> !FormComplete(form)
    ensures r.Rejected? ==> r.alert == MissingNameOrCategory
    ensures r.Accepted? ==>
      var added := Exercise(CustomId(stamp), Trim(form.name), Trim(form.category), None, None, true,
        Some(FieldOr(form.sets, 3)), Some(FieldOr(form.reps, 10)), Some(FieldOr(form.weight, 0.0)));
      var today := DayOfIndex(weekday);
      && r.step.store.exercises == s.exercises + [added]
      && CustomId(stamp) in DayIds(r.step.store.plan, today)
      && (CustomId(stamp) !in DayIds(s.plan, today) ==>
            DayIds(r.step.store.plan, today) == DayIds(s.plan, today) + [CustomId(stamp)])
      && (CustomId(stamp) in DayIds(s.plan, today) ==> r.step.store.plan == s.plan)
      && (forall d :: d != today ==> DayIds(r.step.store.plan, d) == DayIds(s.plan, d))
      && r.step.store == s.(exercises := r.step.store.exercises, plan := r.step.store.plan)
      && r.step.writes == [CustomExercisesWrite(CustomOnly(r.step.store.exercises))]
           + (if CustomId(stamp) in DayIds(s.plan, today) then [] else [PlanWrite(r.step.store.plan)])
  {
    if !FormComplete(form) then Rejected(MissingNameOrCategory)
    else
      var exercise := Exercise(CustomId(stamp), Trim(form.name), Trim(form.category), None, None, true,
        Some(FieldOr(form.sets, 3)), Some(FieldOr(form.reps, 10)), Some(FieldOr(form.weight, 0.0)));
      var added := AddExercise(s, exercise, stamp);
      var planned := AddExerciseToDay(added.store, DayOfIndex(weekday), exercise.id);
      Accepted(Step(planned.store, added.writes + planned.writes))
  }

  /** An exercise the form accepts shows up in today's plan, provided no
      exercise already carried the generated id. */
  lemma {:induction false} AddedExerciseIsPlannedToday(s: Store, form: ExerciseForm, stamp: string, weekday: int)
    requires 0 <= weekday < 7
    requires !HasId(s.exercises, CustomId(stamp))
    ensures var r := HandleAddExercise(s, form, stamp, weekday);
      r.Accepted? ==>
        exists e :: e in GetCurrentDayPlan(r.step.store, weekday) && e.id == CustomId(stamp) && e.isCustom
  {
    var r := HandleAddExercise(s, form, stamp, weekday);
    if r.Rejected? {
      return;
    }
    var after := r.step.store;
    var id := CustomId(stamp);
    var k := |s.exercises|;
    assert after.exercises[k].id == id;
    assert HasId(after.exercises, id);
    var found := Lookup(after.exercises, id).value;
    assert found == after.exercises[k] by {
      var i :| 0 <= i < |after.exercises| && after.exercises[i] == found
        && forall j :: 0 <= j < i ==> after.exercises[j].id != id;
    }
    KnownIdResolves(DayIds(after.plan, DayOfIndex(weekday)), after.exercises, id);
    assert found in GetCurrentDayPlan(after, weekday);
  }

  /** `handleUpdateExercise`: refused, with nothing changed, when the trimmed
      name or category is empty; otherwise the edited exercise is written back
      over every exercise with its id. Only name, category and the three
      defaults change: id, custom flag, description and instructions are kept. */
  function HandleUpdateExercise(s: Store, editing: Exercise, form: ExerciseForm): (r: Submitted)
    ensures r.Rejected? <==> !FormComplete(form)
    ensures r.Rejected? ==> r.alert == MissingNameOrCategory
    ensures r.Accepted? ==>
      var edited := editing.(name := Trim(form.name), category := Trim(form.category),
        defaultSets := Some(FieldOr(form.sets, 3)), defaultReps := Some(FieldOr(form.reps, 10)),
        defaultWeight := Some(FieldOr(form.weight, 0.0)));
      && |r.step.store.exercises| == |s.exercises|
      && (forall i :: 0 <= i < |s.exercises| && s.exercises[i].id == editing.id ==> r.step.store.exercises[i] == edited)
      && (forall i :: 0 <= i < |s.exercises| && s.exercises[i].id != editing.id ==> r.step.store.exercises[i] == s.exercises[i])
      && r.step.store == s.(exercises := r.step.store.exercises)
      && r.step.writes == [CustomExercisesWrite(CustomOnly(r.step.store.exercises))]
  {
    if !FormComplete(form) then Rejected(MissingNameOrCategory)
    else
      var edited := editing.(name := Trim(form.name), category := Trim(form.category),
        defaultSets := Some(FieldOr(form.sets, 3)), defaultReps := Some(FieldOr(form.reps, 10)),
        defaultWeight := Some(FieldOr(form.weight, 0.0)));
      Accepted(UpdateExercise(s, edited))
  }

  /** The Edit and Delete buttons of a plan card are rendered for custom
      exercises only. */
  predicate OffersEditAndDelete(exercise: Exercise) {
    exercise.isCustom
  }

  /** `handleDeleteExercise` (after the confirmation). The handler itself does
      not look at the custom flag and hands the id to the store's full
      cascade; it is the screen that offers it for custom exercises only
      (`OffersEditAndDelete`). */
  function HandleDeleteExercise(s: Store, exerciseId: Id): (r: Step)
    ensures r == DeleteExercise(s, exerciseId)
    ensures forall e :: e in r.store.exercises <==> e in s.exercises && e.id != exerciseId
    ensures r.store.plan.Keys == s.plan.Keys
    ensures forall d :: d in s.plan ==>
      forall x :: x in r.store.plan[d] <==> x in s.plan[d] && x != exerciseId
    ensures forall row :: row in r.store.history <==> row in s.history && row.exerciseId != exerciseId
    ensures forall w :: w in r.store.sessions <==> w in s.sessions && w.exerciseId != exerciseId
    ensures r.store.profile == s.profile && r.store.calorieEntries == s.calorieEntries
    ensures r.store.workoutEntries == s.workoutEntries
    ensures r.writes == [
      CustomExercisesWrite(CustomOnly(r.store.exercises)), PlanWrite(r.store.plan),
      HistoryWrite(r.store.history), SessionsWrite(r.store.sessions)]
  {
    DeleteExercise(s, exerciseId)
  }

  /** After a delete from this screen the exercise is gone from today's
      resolved plan and from today's session lookup, whatever the weekday. */
  lemma {:induction false} DeletedExerciseLeavesToday(s: Store, exerciseId: Id, weekday: int, now: string)
    requires 0 <= weekday < 7
    ensures var after := HandleDeleteExercise(s, exerciseId).store;
      && (forall e :: e in GetCurrentDayPlan(after, weekday) ==> e.id != exerciseId)
      && GetTodaysWorkout(after.sessions, exerciseId, now).None?
  {
    var after := HandleDeleteExercise(s, exerciseId).store;
    forall e | e in GetCurrentDayPlan(after, weekday) ensures e.id != exerciseId {
      assert e in after.exercises;
    }
  }

  /** Editing a custom exercise that carries no preset id keeps the
      preset-then-custom catalog layout, so the edit survives a reload. */
  lemma EditKeepsCatalogShape(s: Store, editing: Exercise, form: ExerciseForm)
    requires CatalogShape(s.exercises)
    requires editing.isCustom && forall i :: 0 <= i < |Presets| ==> Presets[i].id != editing.id
    ensures var r := HandleUpdateExercise(s, editing, form);
      r.Accepted? ==> CatalogShape(r.step.store.exercises)
  {
    if FormComplete(form) {
      var edited := editing.(name := Trim(form.name), category := Trim(form.category),
        defaultSets := Some(FieldOr(form.sets, 3)), defaultReps := Some(FieldOr(form.reps, 10)),
        defaultWeight := Some(FieldOr(form.weight, 0.0)));
      UpdateExerciseKeepsShape(s, edited);
    }
  }

  function StartsWith(prefix: string): WorkoutSession -> bool {
    (w: WorkoutSession) => prefix <= w.date
  }

  /** The "Total Sessions Today" figure: how many sessions, of any exercise,
      have a date starting with today's calendar date. */
  method TodaySessionCount(sessions: seq<WorkoutSession>, now: string) returns (count: nat)
    ensures count == |Filter(sessions, StartsWith(DatePart(now)))|
    ensures count <= |sessions|
  {
    var today := DatePart(now);
    count := 0;
    var i := 0;
    while i < |sessions|
      invariant 0 <= i <= |sessions|
      invariant count == |Filter(sessions[..i], StartsWith(today))|
    {
      assert sessions[..i + 1] == sessions[..i] + [sessions[i]];
      FilterSnoc(sessions[..i], sessions[i], StartsWith(today));
      if today <= sessions[i].date {
        count := count + 1;
      }
      i := i + 1;
    }
    assert sessions[..|sessions|] == sessions;
  }
}

=== FILE: wrappers.dfy ===
/** Optional values: the model's stand-in for a JavaScript value that may be
    `undefined` (an optional record field, the result of `Array.find`). */
module Wrappers {

  datatype Option<+T> = None | Some(value: T) {

    /** The encapsulated value, or `default` when there is none. */
    function GetOr(default: T): T {
      match this
      case Some(v) => v
      case None => default
    }
  }
}
